=== FILE: README.md ===
# optmagic argument synthesis, modelled in Dafny

optmagic turns a Python function or class into a command-line program. It reads
the target's parameters and their docstring descriptions. From them it derives
one command-line argument per parameter, with these parts:

- a long flag `--name`;
- a short flag `-x` picked greedily from the letters of the name;
- the help text;
- the default and the `required` marker;
- two hints read from the description: a two-way `choices` pair and a display
  name (`metavar`).

It then builds the parser specification and adds three flags after the
arguments: `--version`, `--help` and `--pytest`. Finally it calls the target
with the parsed values.

The model is a set of pure functions over immutable datatypes:

- `py.dfy` (`Py`): Python's `None`, the errors the code can raise (`KeyError`,
  `IndexError`, `TypeError`, `ValueError`, `AttributeError`) as a `Result`, and
  the parameter default, which is either the no-default sentinel or a value.
- `pystr.dfy` (`PyStr`): the string built-ins the code relies on. These are
  `str.split()`, `' '.join`, `lower`, `upper` and `str.split('_')`.
- `choices.dfy` (`Choices`): the regular expression
  `either ['"`](.+?)['"`] or ['"`](.+?)['"`]`. A declarative `Match` states
  when the pattern matches with given group lengths. `FirstMatch` is the match
  Python's `re` reports first: the leftmost start, then the shortest first
  group, then the shortest second group. A scanner finds exactly that match.
- `letters.dfy` (`Letters`): the candidate letters of a name, the pick of the
  first free one, and the allocation over all arguments. Python resolves the
  letters through cached properties and a `letter_chosen` flag. Here they are
  a fold that threads the set of letters already taken. That set starts as
  `{h, v}`, and a `None` letter is a member of it, as it is in Python.
- `arguments.dfy` (`Arguments`): the `Argument` record, `flat_desc`,
  `has_default`, `help`, `choices`, `metavar`, `kwargs` and `add_arg`.
- `optmagic.dfy` (`OptMagic`): what the engine does with the target.
  - It classifies the target (`type`, `func`) and builds one argument per
    parameter (`arguments`).
  - It builds the project-URL epilog. This trims the help of the last required
    argument as a side effect, which the model returns explicitly.
  - It builds the version string and the parser specification. Each
    `add_argument` call is recorded as data, in order.
  - It dispatches the call (`__call__`).
- `vectors.dfy` (`Vectors`): worked examples on the sample car class shipped
  with the repository.

Reflection is an input to the model. That covers the parameter list, the
docstring map, and the name, docstring, `__version__` and `project_url` of the
defining module and of its top-level package.

## Model

| member | source | states |
|---|---|---|
| Arguments.NewArgument | optmagic/argument.py:84-85 | The help of a fresh argument is its description followed by exactly two line breaks. Name, default and description are kept as given. |
| Arguments.HasDefault | optmagic/argument.py:48-51 | An argument has a default exactly when its parameter declared one, `None` included. Only the no-default sentinel counts as no default. |
| Arguments.FlatDesc | optmagic/argument.py:41-46 | The flattened description is flat: no whitespace other than single blanks between words, no blank at either end. Its words are the description's words, lowercased, in order. |
| Arguments.FlatDescIdempotent | optmagic/argument.py:41-46 | Flattening a flattened description changes nothing. |
| Arguments.FlatDescFixpoints | optmagic/argument.py:41-46 | Flattening leaves a string unchanged if and only if the string is already flat. |
| Arguments.FlatDescKeepsText | optmagic/argument.py:41-46 | Flattening only removes whitespace and lowercases: the non-whitespace characters survive in order, lowercased. |
| Arguments.ChoicesOf | optmagic/argument.py:87-100 | The result is absent exactly when the pattern matches nowhere in the flattened description. Otherwise it is the two groups of the match Python reports first, and both groups are lowercase. |
| Choices.FirstChoices | optmagic/argument.py:96-98 | `findall(...)[0]` is absent if and only if no match exists. Otherwise it holds the groups of the leftmost match with the shortest first group and then the shortest second group. On a string without capitals the groups have none either. |
| Choices.Locate | optmagic/argument.py:96-97 | The scan from an offset finds a match that no earlier start beats and no shorter group beats. It finds none exactly when no start at or after the offset matches. |
| Choices.ScanFirst | optmagic/argument.py:96 | The lazy first group: the shortest length for which a second group exists, paired with that second group's shortest length. No length in between admits a match. |
| Choices.ScanSecond | optmagic/argument.py:96 | The lazy second group: the shortest run without a line break that a quote closes. No shorter one exists. |
| Choices.LeadingChoices | optmagic/argument.py:96-98 | A text that opens with `either 'A' or 'B'` yields exactly `(A, B)`, whatever follows, when A and B are non-empty and hold no quote or line break. |
| Arguments.Metavar | optmagic/argument.py:110-128 | `IndexError` exactly when the description has no word, or only the word "the". No display name exactly when the first word is not "the" in any case. Otherwise the display name is the second word uppercased, except that `NUMBER` becomes `NUM` and `DIRECTORY` becomes `DIR`. It is a single word without lowercase letters. |
| Arguments.MetavarOfThe | optmagic/argument.py:119-128 | A description made of optional leading whitespace, a word equal to "the" in any case, whitespace, and a second word that ends the text or is followed by whitespace, is named after that second word: uppercased, with `NUMBER` and `DIRECTORY` abbreviated. |
| Arguments.KwargsOf | optmagic/argument.py:130-143 | The keyword options exist exactly when the display name can be computed. `help` is the argument's help, and `required` is the negation of having a default. `default` is present unless the default is Python `None`, so the no-default sentinel is passed on. `choices` is exactly the inferred pair, absent when none is found, and `metavar` is exactly the inferred display name, absent when there is none. |
| Arguments.AddArg | optmagic/argument.py:146-155 | Registration succeeds if and only if a short letter exists and the display name can be computed. A missing letter raises `TypeError`. On success the call goes to the required group exactly when the argument has no default, and `required` agrees with the group. The flags are `--name` and `-letter`. |
| PyStr.SplitRoundTrip | optmagic/argument.py:69 | Joining the underscore segments back with `_` gives the name, and no segment holds an underscore. |
| Letters.Candidates | optmagic/argument.py:68-77 | The generator always offers the name's own first character, or faults on it when the name is empty. A name whose first segment is `output` offers `o` before anything else. |
| Letters.Spelled | optmagic/argument.py:75-77 | The spelled-out candidates are letters of the name and never underscores. |
| Letters.CandidateLetters | optmagic/argument.py:68-77 | Every letter the generator yields is a character of the name. It is an underscore only when the name starts with one. |
| Letters.CandidateFaults | optmagic/argument.py:68-74 | The generator faults on `[0]` of an empty string exactly when the name is empty, or its second, third or fourth segment, where present, is empty. |
| Letters.CandidatesPlain | optmagic/argument.py:68-77 | A name without underscores offers its first character, then each of its characters in order. |
| Letters.CandidatesTwoSegments | optmagic/argument.py:68-77 | A name `a_b` offers the initial of `b` first, then the initial of `a`, then its spelling. |
| Letters.Pick | optmagic/argument.py:78-80 | A returned letter is free and is the first free candidate, with only taken letters before it. `None` is returned exactly when every candidate is taken. A fault is raised only when a faulting candidate comes before any free one. |
| Letters.PickFirstFree | optmagic/argument.py:78-80 | Conversely, when a free letter comes first after only taken letters, the pick returns exactly that letter. |
| Letters.ShortLetter | optmagic/argument.py:53-80 | With 26 letters taken the result is `None`. A returned letter is not among those taken, and it is never `h` or `v` once those are reserved. |
| Letters.ShortLetterFirstFree | optmagic/argument.py:66-80 | With fewer than 26 letters taken, the first free candidate after only taken ones is the letter returned. |
| Letters.PlainFirstLetter | optmagic/argument.py:72-80 | A name without underscores, other than `output`, takes its first character when that letter is free. |
| Letters.PlainSecondLetter | optmagic/argument.py:72-80 | When its first character is taken, such a name takes its second character if free. |
| Letters.TwoSegmentLetter | optmagic/argument.py:69-80 | A name `a_b` takes the initial of `b` when that letter is free. |
| Letters.AllocateFrom | optmagic/argument.py:60-64 | The fold that replaces the `letter_chosen` flags: on success there is one letter per argument. `AllocateSteps` states how each letter is chosen. |
| Letters.Allocate | optmagic/argument.py:60-64 | One target's fold starts from the reserved `{h, v}`. On success it gives one letter per argument. |
| Letters.AllocateSteps | optmagic/argument.py:60-64 | The fold succeeds with letters `ls` if and only if, for every argument, `short_letter` returns its letter given `{h, v}` and the letters of the arguments before it. |
| Letters.AllocatePrefix | optmagic/argument.py:60-64 | Each argument's letter depends only on the arguments before it: allocating a prefix of the list gives the prefix of the letters. |
| Letters.AllocateDistinct | optmagic/argument.py:60-80 | Across one target, no allocated letter is `h` or `v`, and letters that exist are pairwise distinct. |
| Letters.Exhaustion | optmagic/argument.py:66-80 | With 25 or more arguments, one of the first 25 gets no letter. |
| OptMagic.TypeOf | optmagic/__init__.py:52-61 | A class gives `class` and a plain function gives `function`. Any other object, and only such an object, raises `ValueError`. |
| OptMagic.Func | optmagic/__init__.py:63-67 | The callable is the constructor for a class and the object itself for a function. Any other object fails with the error `type` raises. |
| OptMagic.MakeArguments | optmagic/__init__.py:90-99 | One argument per parameter, in declaration order, with that parameter's name, default and docstring entry. It fails if and only if a parameter has no docstring entry, with `KeyError` on the first such parameter. |
| OptMagic.ProjectUrl | optmagic/__init__.py:143-148 | The top-level package's `project_url` overrides the defining module's. |
| OptMagic.LastRequired | optmagic/__init__.py:154-155 | Position `i` is reported if and only if argument `i` has no default and every later argument has one. Nothing is reported when all arguments have defaults. |
| OptMagic.Epilog | optmagic/__init__.py:135-157 | The banner exists exactly when a project URL is known. It is 75 dashes, a line holding a vertical bar and `More information at <url>`, and 75 dashes. When the banner is made, the last required argument's help loses its final character. Every other argument, and every other field, is unchanged. |
| OptMagic.EpilogHelp | optmagic/__init__.py:150-155 | After the epilog, an argument's help has lost its final character exactly when a URL is known and the argument is the last one without a default. Otherwise the help is unchanged. |
| OptMagic.VersionStringAsWritten | optmagic/__init__.py:167-178 | As written: the package version when the package has one. `AttributeError` when only the defining module has one. Otherwise the bare program name. |
| OptMagic.VersionString | optmagic/__init__.py:167-178 | The program name, then ` version ` and the package's version, or failing that the defining module's. It is the bare name exactly when neither declares a version. |
| OptMagic.VersionStringFinding | optmagic/__init__.py:175-176 | A package without `__version__` whose defining module has one makes the as-written string fail. The corrected string reads `pkg version 1.0`. |
| OptMagic.VersionStringAgrees | optmagic/__init__.py:168-178 | Wherever the as-written version string succeeds, the corrected one gives the same text. |
| OptMagic.AddAll | optmagic/__init__.py:211-212 | The loop adds one call per argument, in order. Each call carries `--name`, that argument's keyword options, and the group its default selects. When the loop succeeds is stated by `OptMagic.AddAllSucceeds`. |
| OptMagic.AddAllSucceeds | optmagic/__init__.py:211-212 | The loop gets through every argument exactly when the allocator gives each argument a letter and each description has a computable display name. |
| OptMagic.AddAllError | optmagic/argument.py:150-155 | A failed loop reports the error of the first argument that does not get through `add_arg`: the earlier arguments all got letters and display names, and this one has a faulting `short_letter` (`IndexError`), no letter (`TypeError` from `'-' + None`), or a failing `metavar` (`IndexError`), checked in that order. |
| OptMagic.AddAllLetters | optmagic/__init__.py:211-212 | The short flags of the loop's calls are exactly the letters the allocator gives the argument names, and every call has one. |
| OptMagic.Parser | optmagic/__init__.py:198-226 | With the corrected `--version` string (see "## Left out"), a parser is built exactly when every parameter is documented and the argument loop succeeds. An undocumented parameter's `KeyError` is the error returned. A built parser carries the top-level package's name and one call per parameter plus three more for the fixed flags. |
| OptMagic.ParserBuilt | optmagic/__init__.py:198-226 | In terms of the target alone, and with the corrected `--version` string (see "## Left out"): a parser is built exactly when every parameter is documented, the allocator gives every parameter a letter, and every description has a computable display name. |
| OptMagic.ParserShape | optmagic/__init__.py:198-226 | Program name and title come from the top-level package. The epilog exists exactly when a URL is known. The required group is created exactly when the target has parameters, whatever their defaults. There is one call per parameter, in declaration order, on the required group exactly when the parameter has no default. Then `--version` with the version string, `--help` and `--pytest` come last, in that order. |
| OptMagic.ParserEpilog | optmagic/__init__.py:189-193 | The epilog handed to the parser is the project URL in a "More information at" line between two 75-dash rules when a URL is known, and absent otherwise. |
| OptMagic.ParserPartition | optmagic/__init__.py:205-212 | The required group receives as many arguments as there are parameters without a default. The parser itself receives the rest. |
| OptMagic.ParserShortFlags | optmagic/__init__.py:211-218 | Each argument's short flag is the letter the allocator picks for it. Short flags are pairwise distinct and never `-h` or `-v`, so they never clash with the built-in flags. |
| OptMagic.ParserNeedsFewerThan25 | optmagic/argument.py:153-155 | A target with 25 or more parameters never gets a parser, because one of its first 25 arguments is left without a letter. The error is that of the first failing argument, as `OptMagic.AddAllError` states; it is `'-' + None` unless an earlier argument fails first. |
| OptMagic.ParserUndocumented | optmagic/__init__.py:93-97 | The first parameter missing from the docstring map stops the parser with `KeyError` on its name. |
| OptMagic.FinalHelp | optmagic/__init__.py:150-155 | After the epilog, an argument's help is its description and two line breaks. The exception is the last parameter without a default when a URL is known: its help keeps one line break. |
| OptMagic.ParserHelp | optmagic/__init__.py:150-155 | The help handed to the parser for each parameter is the one `FinalHelp` states. The epilog's trim is seen by the `add_argument` calls. |
| OptMagic.Invoke | optmagic/__init__.py:243-250 | Another object raises `ValueError` before any parsing, and a parser failure propagates. For a function or a class, a built parser always leads to a call. A function is called with the parsed values only, so extra arguments are ignored. A class is constructed with the parsed values, and the instance is then called with exactly the extra positional and keyword arguments. |
| Vectors.CarLetters | optmagic/tests/simple_car_class.py:31-39 | The car's parameters `name, color, automatic, convertible, max_speed, registration, sided` get the short flags `n, c, a, o, s, r, i`. |
| Vectors.AutomaticChoices | optmagic/tests/simple_car_class.py:47-48 | The `automatic` clause `either 'True' or 'False'`, once flattened, offers `('true', 'false')`. |
| Vectors.SidedChoices | optmagic/tests/simple_car_class.py:56-58 | The `sided` clause `Either 'left' or 'right'`, once flattened, offers `('left', 'right')`. |
| Vectors.SidedMetavar | optmagic/tests/simple_car_class.py:56 | "The side of the road ..." gives the display name `SIDE`. |
| Vectors.DirectoryMetavar | optmagic/argument.py:119-126 | The indented, tab-separated description "THE Directory" gives the display name `DIR`. |

### Quirks of the code the model keeps

- **Display name.** `metavar` reads `words[0]` and `words[1]` without a
  length check (optmagic/argument.py:119-123). An empty description, or one
  that is just "the", therefore raises `IndexError`, and `Arguments.Metavar`
  returns that error. It stops the parser.
- **Running out of letters.** `short_letter` returns `None` once no candidate
  is free (optmagic/argument.py:66-80), and `add_arg` then builds
  `'-' + None` (optmagic/argument.py:154). `Arguments.AddArg` returns
  `TypeError`, and `OptMagic.ParserNeedsFewerThan25` proves the consequence.
- **Undocumented parameters.** `arguments` indexes `self.sub_docs[param.name]`
  (optmagic/__init__.py:95). A parameter without a docstring entry raises
  `KeyError`, which `OptMagic.MakeArguments` returns.
- **Flag order.** `parser` adds `--version`, then `--help`, then `--pytest`,
  after the arguments (optmagic/__init__.py:214-224).
- **Required group.** The group is created when the list of `has_default`
  values is non-empty (optmagic/__init__.py:207), that is, whenever the
  target has parameters, whatever their defaults.

One departure is deliberate: `arguments` calls `Argument(param.name,
param.default, desc, self)` (optmagic/__init__.py:93-96), while the
constructor's parameters are `(optmagic, name, default, desc)`
(optmagic/argument.py:16). `OptMagic.MakeArguments` gives each value the
field its name says, as the rest of the code reads them.

## Left out

- OptMagic.Parser: builds the `--version` flag from the corrected
  `OptMagic.VersionString` (see Findings). For a package without
  `__version__` whose defining module has one, the code raises
  `AttributeError` at optmagic/__init__.py:176 and never returns a parser.
  The model returns one, with the defining module's version.
- OptMagic.MakeArguments: associates name, default and description with their
  own fields rather than with the constructor positions they are passed in
  (see "Quirks of the code the model keeps").
- Parsing the command line is left out. The foreign parsing library
  (`argparse`) does that, together with help formatting, process exit and the
  `shlex` override for debugging. The model ends at the specification handed to
  the library. `Invoke` takes the parsed values as an input and returns the
  call it would make, not its result.
- The `options` that never vary are left out: the usage string, which is
  always `None`, `allow_abbrev`, `add_help` and the formatter class. So are the
  group titles and the help strings of the three built-in flags, and the
  parser's own errors on conflicting option strings, such as a parameter named
  `help`.
- Reflection is replaced by inputs: `inspect.signature`, `inspect.getmodule`,
  `__import__`, the docstring parser and the filesystem lookup behind
  `base_path`. `--pytest` is recorded without its `base_path` default.
- The `markdown` export and the pytest action are left out. They write files
  and run external processes.
- `Argument.type` is always `None`, so type coercion is not modelled.
- `__repr__` and `__str__` are left out. They are display only.
- PyStr.Lower: only ASCII letters change case. Python's `lower` and `upper`
  also map other Unicode letters, and can change a string's length.
- OptMagic.ModuleInfo: module attributes are strings or absent. A
  `project_url` attribute set to `None` is treated as absent, but in Python it
  would hide the defining module's URL. A non-string `__version__` is not
  modelled.
- Vectors.SidedChoices: covers flattened text that opens with the choice
  clause. In the car's real description the clause comes after a first
  sentence. Proving that the first sentence holds no match would mean
  evaluating the scan on a long literal.
- Vectors.AutomaticChoices: limited in the same way as `SidedChoices`.

## Findings

| source | as written | input that shows it | evidently intended | confidence | as-written member | corrected member |
|---|---|---|---|---|---|---|
| optmagic/__init__.py:175-176 | The `elif` tests `child_module.__version__` but then reads `base_module.__version__`. | Package `pkg` has no `__version__`, and its module `pkg.cars` declares `1.0`. Reading the package attribute raises `AttributeError`, which stops the parser. | Read the defining module's version and produce `pkg version 1.0`. | not executed | OptMagic.VersionStringAsWritten (counterexample `OptMagic.VersionStringFinding`) | OptMagic.VersionString (used by `OptMagic.Parser`; `OptMagic.VersionStringAgrees`) |

=== FILE: arguments.dfy ===
/** One command-line argument derived from one parameter of the target:
    its flattened description, whether it is required, the hints inferred
    from its description (two-way choices, a display name), its help text,
    the keyword options handed to the parser, and the `add_argument` call
    that registers it in the right group.
 */
module Arguments {
  import opened Py
  import opened PyStr
  import Choices

  /** A parameter seen as an argument. `help` starts as the description
      followed by two line breaks; the epilog may later shorten it. */
  datatype Argument = Argument(name: string, default: Default, desc: string, help: string)

  /** The argument a parameter `name` with `default` and docstring entry
      `desc` becomes. */
  function NewArgument(name: string, default: Default, desc: string): (a: Argument)
    ensures a.name == name && a.default == default && a.desc == desc
    ensures |a.help| == |desc| + 2
    ensures a.help[..|desc|] == desc && a.help[|desc|..] == "\n\n"
  {
    Argument(name, default, desc, desc + "\n\n")
  }

  /** `has_default`: the parameter declares a default, even `None`. */
  function HasDefault(a: Argument): (r: bool)
    ensures r <==> a.default.Given?
    ensures a.default == Given(NoneValue) ==> r
  {
    a.default != Empty
  }

  //----------------------------------------------------------------------
  // flat_desc
  //----------------------------------------------------------------------

  /** `' '.join(desc.split()).lower()`: the words of the description,
      lowercased, separated by single blanks. */
  function FlatDesc(desc: string): (r: string)
    ensures IsFlat(r)
    ensures Words(r) == LowerAll(Words(desc))
  {
    var ws := Words(desc);
    WordsAreWords(desc);
    LowerJoin(ws);
    LowerOfWords(ws);
    JoinIsFlat(LowerAll(ws));
    WordsOfJoin(LowerAll(ws));
    Lower(Join(ws))
  }

  /** Flattening twice is flattening once. */
  lemma FlatDescIdempotent(desc: string)
    ensures FlatDesc(FlatDesc(desc)) == FlatDesc(desc)
  {
    var r := FlatDesc(desc);
    FlatIsJoinOfWords(r);
    LowerIdentity(r);
  }

  /** The strings flattening leaves unchanged are exactly the flat ones. */
  lemma FlatDescFixpoints(t: string)
    ensures FlatDesc(t) == t <==> IsFlat(t)
  {
    if IsFlat(t) {
      FlatIsJoinOfWords(t);
      LowerIdentity(t);
    }
  }

  lemma {:induction false} ConcatLowerAll(ws: seq<string>)
    ensures Concat(LowerAll(ws)) == Lower(Concat(ws))
    decreases |ws|
  {
    if |ws| > 0 {
      ConcatLowerAll(ws[1..]);
      assert LowerAll(ws)[1..] == LowerAll(ws[1..]);
      LowerConcat(ws[0], Concat(ws[1..]));
    }
  }

  /** Flattening removes whitespace and lowercases, and does nothing else:
      the non-whitespace characters survive, in order. */
  lemma FlatDescKeepsText(desc: string)
    ensures NonSpace(FlatDesc(desc)) == Lower(NonSpace(desc))
  {
    var r := FlatDesc(desc);
    WordsKeepContent(r);
    WordsKeepContent(desc);
    ConcatLowerAll(Words(desc));
  }

  //----------------------------------------------------------------------
  // Inferred hints
  //----------------------------------------------------------------------

  /** `choices`: the two groups of the first `either 'A' or 'B'` in the
      flattened description. */
  function ChoicesOf(desc: string): (r: Option<(string, string)>)
    ensures r.None? <==> forall i: nat, k: nat, m: nat :: !Choices.Match(FlatDesc(desc), i, k, m)
    ensures r.Some? ==> exists i: nat, k: nat, m: nat ::
      Choices.FirstMatch(FlatDesc(desc), i, k, m) && r.value == Choices.Groups(FlatDesc(desc), i, k, m)
    ensures r.Some? ==> NoUpper(r.value.0) && NoUpper(r.value.1)
  {
    Choices.FirstChoices(FlatDesc(desc))
  }

  /** The fixed abbreviations of display names. */
  function Abbreviate(metavar: string): string {
    if metavar == "NUMBER" then "NUM"
    else if metavar == "DIRECTORY" then "DIR"
    else metavar
  }

  /** `metavar`: the second word, uppercased and abbreviated, when the first
      word is "the" in any case. `words[0]` and `words[1]` are read without a
      length check, so an empty description, or one that is just "the",
      raises `IndexError`. */
  function Metavar(desc: string): (r: Result<Option<string>>)
    ensures r.Err? <==> |Words(desc)| == 0 || (Lower(Words(desc)[0]) == "the" && |Words(desc)| == 1)
    ensures r == Ok(None) <==> |Words(desc)| > 0 && Lower(Words(desc)[0]) != "the"
    ensures r.Ok? && r.value.Some? ==>
      var mv := r.value.value;
      && Lower(Words(desc)[0]) == "the"
      && IsWord(mv) && NoLower(mv)
      && (Upper(Words(desc)[1]) == "NUMBER" ==> mv == "NUM")
      && (Upper(Words(desc)[1]) == "DIRECTORY" ==> mv == "DIR")
      && (Upper(Words(desc)[1]) != "NUMBER" && Upper(Words(desc)[1]) != "DIRECTORY" ==>
            mv == Upper(Words(desc)[1]))
  {
    var words := Words(desc);
    if |words| == 0 then Err(IndexError("words[0]"))
    else if Lower(words[0]) == "the" then
      if |words| < 2 then Err(IndexError("words[1]"))
      else
        WordsAreWords(desc);
        assert IsWord(words[1]);
        Ok(Some(Abbreviate(Upper(words[1]))))
    else Ok(None)
  }

  /** A description whose first word is "the", in any case, is named after
      its second word, whatever whitespace surrounds the two and whatever
      follows them. */
  lemma MetavarOfThe(pre: string, the: string, sep: string, w: string, tail: string)
    requires Blank(pre) && Blank(sep) && |sep| > 0
    requires IsWord(the) && Lower(the) == "the" && IsWord(w)
    requires |tail| == 0 || IsSpace(tail[0])
    ensures Metavar(pre + the + sep + w + tail) == Ok(Some(Abbreviate(Upper(w))))
  {
    WordsOfPair(pre, the, sep, w, tail);
  }

  //----------------------------------------------------------------------
  // Options handed to the parser
  //----------------------------------------------------------------------

  /** The keyword arguments of `add_argument`. A `None` field is a key the
      dictionary does not hold; `type` is never set. */
  datatype Kwargs = Kwargs(
    help: string,
    default: Option<Default>,
    choices: Option<(string, string)>,
    metavar: Option<string>,
    required: bool)

  /** `kwargs`: `help` always; `default` unless the default is Python `None`
      (the no-default sentinel is not `None`, so it is passed on);
      `choices` and `metavar` only when inferred; `required` always. */
  function KwargsOf(a: Argument): (r: Result<Kwargs>)
    ensures r.Ok? <==> Metavar(a.desc).Ok?
    ensures r.Ok? ==> r.value.required == !HasDefault(a)
    ensures r.Ok? ==> r.value.help == a.help
    ensures r.Ok? ==> (r.value.default.Some? <==> a.default != Given(NoneValue))
    ensures r.Ok? && r.value.default.Some? ==> r.value.default.value == a.default
    ensures r.Ok? ==> r.value.choices == ChoicesOf(a.desc)
    ensures r.Ok? ==> r.value.metavar == Metavar(a.desc).value
  {
    var mv :- Metavar(a.desc);
    Ok(Kwargs(
      a.help,
      if a.default == Given(NoneValue) then None else Some(a.default),
      ChoicesOf(a.desc),
      mv,
      !HasDefault(a)))
  }

  //----------------------------------------------------------------------
  // Registration with the parser
  //----------------------------------------------------------------------

  /** The parser itself, or the "Required arguments" group. */
  datatype Group = ParserGroup | RequiredGroup

  /** One `add_argument` call, in the order the parser receives them. */
  datatype Call =
    | AddArgument(group: Group, long: string, short: string, kwargs: Kwargs)
    | VersionFlag(version: string)
    | HelpFlag
    | PytestFlag

  /** `add_arg`: register the argument under `--name` and `-letter`, in the
      required group when it has no default. `'-' + None` raises `TypeError`,
      so an argument left without a letter cannot be registered. */
  function AddArg(a: Argument, letter: Option<char>): (r: Result<Call>)
    ensures r.Ok? <==> letter.Some? && Metavar(a.desc).Ok?
    ensures letter.None? ==> r.Err? && r.error.TypeError?
    ensures r.Ok? ==> r.value.AddArgument?
    ensures r.Ok? ==> (r.value.group == RequiredGroup <==> !HasDefault(a))
    ensures r.Ok? ==> r.value.kwargs.required == (r.value.group == RequiredGroup)
    ensures r.Ok? ==> r.value.long == "--" + a.name && r.value.short == ['-', letter.value]
  {
    var group := if HasDefault(a) then ParserGroup else RequiredGroup;
    if letter.None? then Err(TypeError("'-' + None"))
    else
      var kw :- KwargsOf(a);
      Ok(AddArgument(group, "--" + a.name, "-" + [letter.value], kw))
  }
}

=== FILE: choices.dfy ===
/** Two-way choice detection: the first match of the regular expression
    `either ['"`](.+?)['"`] or ['"`](.+?)['"`]` in a string.

    `Match` states declaratively when the pattern matches with its opening
    `either` at offset `i`, a first group of length `k` and a second group of
    length `m`. Python's `re` reports the leftmost start, and at that start,
    because both groups are lazy, the shortest first group for which the rest
    can match, then the shortest second group: the least `(i, k, m)` in
    lexicographic order. `Locate` finds it by scanning and is proved to return
    exactly that triple, or nothing when no triple matches.
 */
module Choices {
  import opened Py
  import PyStr

  /** The quote characters the pattern accepts on either side of a group. */
  predicate IsQuote(c: char) {
    c == '\'' || c == '"' || c == '`'
  }

  /** No line break in `s[lo..hi]`: the pattern's `.` matches anything else. */
  predicate NoNewline(s: string, lo: int, hi: int)
    requires 0 <= lo <= hi <= |s|
  {
    forall t :: lo <= t < hi ==> s[t] != '\n'
  }

  /** `either ` followed by a quote, at offset `i`. */
  predicate Opening(s: string, i: nat)
    requires i + 8 <= |s|
  {
    s[i..i + 7] == "either " && IsQuote(s[i + 7])
  }

  /** A quote, ` or `, and a quote, at offset `q`. */
  predicate Middle(s: string, q: nat)
    requires q + 6 <= |s|
  {
    IsQuote(s[q]) && s[q + 1..q + 5] == " or " && IsQuote(s[q + 5])
  }

  /** A second group of length `m` at `p`, closed by a quote. */
  predicate Closing(s: string, p: nat, m: nat)
  {
    1 <= m && p + m < |s| && NoNewline(s, p, p + m) && IsQuote(s[p + m])
  }

  /** The whole pattern matches at `i` with group lengths `k` and `m`. */
  ghost predicate Match(s: string, i: nat, k: nat, m: nat)
  {
    && 1 <= k && 1 <= m && i + 15 + k + m <= |s|
    && Opening(s, i)
    && NoNewline(s, i + 8, i + 8 + k)
    && Middle(s, i + 8 + k)
    && Closing(s, i + 14 + k, m)
  }

  /** `(i, k, m)` is the match Python's `re` reports first. */
  ghost predicate FirstMatch(s: string, i: nat, k: nat, m: nat)
  {
    && Match(s, i, k, m)
    && (forall i': nat, k': nat, m': nat :: i' < i ==> !Match(s, i', k', m'))
    && (forall k': nat, m': nat :: k' < k ==> !Match(s, i, k', m'))
    && (forall m': nat :: m' < m ==> !Match(s, i, k, m'))
  }

  /** The shortest second group at `p` not shorter than `m`. */
  function ScanSecond(s: string, p: nat, m: nat): (r: Option<nat>)
    requires 1 <= m && p + m - 1 <= |s|
    requires NoNewline(s, p, p + m - 1)
    ensures r.Some? ==> m <= r.value && Closing(s, p, r.value)
    ensures r.Some? ==> forall m': nat :: m <= m' < r.value ==> !Closing(s, p, m')
    ensures r.None? ==> forall m': nat :: m <= m' ==> !Closing(s, p, m')
    decreases |s| - m
  {
    if p + m >= |s| then None
    else if s[p + m - 1] == '\n' then None
    else if IsQuote(s[p + m]) then Some(m)
    else ScanSecond(s, p, m + 1)
  }

  /** The shortest first group at `i`, not shorter than `k`, for which a
      second group exists, paired with that second group's shortest length. */
  function ScanFirst(s: string, i: nat, k: nat): (r: Option<(nat, nat)>)
    requires 1 <= k && i + 8 + k - 1 <= |s|
    requires Opening(s, i)
    requires NoNewline(s, i + 8, i + 8 + k - 1)
    ensures r.Some? ==> k <= r.value.0 && Match(s, i, r.value.0, r.value.1)
    ensures r.Some? ==> forall k': nat, m': nat :: k <= k' < r.value.0 ==> !Match(s, i, k', m')
    ensures r.Some? ==> forall m': nat :: m' < r.value.1 ==> !Match(s, i, r.value.0, m')
    ensures r.None? ==> forall k': nat, m': nat :: k <= k' ==> !Match(s, i, k', m')
    decreases |s| - k
  {
    var q := i + 8 + k;
    if q > |s| then None
    else if s[q - 1] == '\n' then None
    else if q + 6 <= |s| && Middle(s, q) then
      match ScanSecond(s, q + 6, 1)
      case Some(m) => Some((k, m))
      case None =>
        assert forall m': nat :: !Match(s, i, k, m') by {
          forall m': nat ensures !Match(s, i, k, m') {
            if 1 <= m' {
              assert !Closing(s, q + 6, m');
            }
          }
        }
        ScanFirst(s, i, k + 1)
    else
      assert forall m': nat :: !Match(s, i, k, m');
      ScanFirst(s, i, k + 1)
  }

  /** The first match starting at or after `i`. */
  function Locate(s: string, i: nat): (r: Option<(nat, nat, nat)>)
    requires i <= |s|
    ensures r.Some? ==> i <= r.value.0 && Match(s, r.value.0, r.value.1, r.value.2)
    ensures r.Some? ==> forall i': nat, k': nat, m': nat :: i <= i' < r.value.0 ==> !Match(s, i', k', m')
    ensures r.Some? ==> forall k': nat, m': nat :: k' < r.value.1 ==> !Match(s, r.value.0, k', m')
    ensures r.Some? ==> forall m': nat :: m' < r.value.2 ==> !Match(s, r.value.0, r.value.1, m')
    ensures r.None? ==> forall i': nat, k': nat, m': nat :: i <= i' ==> !Match(s, i', k', m')
    decreases |s| - i
  {
    if i + 8 > |s| then None
    else if Opening(s, i) then
      match ScanFirst(s, i, 1)
      case Some((k, m)) => Some((i, k, m))
      case None => Locate(s, i + 1)
    else Locate(s, i + 1)
  }

  /** The two captured groups of the match `(i, k, m)`. */
  function Groups(s: string, i: nat, k: nat, m: nat): (string, string)
    requires Match(s, i, k, m)
  {
    (s[i + 8..i + 8 + k], s[i + 14 + k..i + 14 + k + m])
  }

  /** `re.findall(pattern, s)[0]`, or `None` when the list is empty. */
  function FirstChoices(s: string): (r: Option<(string, string)>)
    ensures r.None? <==> forall i: nat, k: nat, m: nat :: !Match(s, i, k, m)
    ensures r.Some? ==> exists i: nat, k: nat, m: nat :: FirstMatch(s, i, k, m) && r.value == Groups(s, i, k, m)
    ensures r.Some? && PyStr.NoUpper(s) ==> PyStr.NoUpper(r.value.0) && PyStr.NoUpper(r.value.1)
  {
    match Locate(s, 0)
    case None => None
    case Some((i, k, m)) =>
      assert FirstMatch(s, i, k, m);
      Some(Groups(s, i, k, m))
  }

  /** There is at most one first match, so the groups `FirstChoices`
      reports are determined by the string. */
  lemma FirstMatchUnique(s: string, i: nat, k: nat, m: nat, i': nat, k': nat, m': nat)
    requires FirstMatch(s, i, k, m) && FirstMatch(s, i', k', m')
    ensures i == i' && k == k' && m == m'
  {
  }

  /** The groups of the two-way pattern: non-empty, free of quotes and of
      line breaks. */
  predicate PlainGroup(a: string) {
    |a| > 0 && forall t :: 0 <= t < |a| ==> !IsQuote(a[t]) && a[t] != '\n'
  }

  /** The text of the pattern with groups `a` and `b` and single quotes. */
  function Quoted(a: string, b: string): string {
    "either '" + a + "' or '" + b + "'"
  }

  lemma QuotedLayout(a: string, b: string, rest: string)
    ensures var s := Quoted(a, b) + rest;
      && |s| == 15 + |a| + |b| + |rest|
      && s[0..7] == "either " && s[7] == '\''
      && s[8..8 + |a|] == a
      && s[8 + |a|] == '\'' && s[9 + |a|..13 + |a|] == " or " && s[13 + |a|] == '\''
      && s[14 + |a|..14 + |a| + |b|] == b
      && s[14 + |a| + |b|] == '\''
  {
    var s := Quoted(a, b) + rest;
    assert s == "either '" + a + "' or '" + b + "'" + rest;
  }

  lemma QuotedFirstMatch(a: string, b: string, rest: string)
    requires PlainGroup(a) && PlainGroup(b)
    ensures FirstMatch(Quoted(a, b) + rest, 0, |a|, |b|)
    ensures Groups(Quoted(a, b) + rest, 0, |a|, |b|) == (a, b)
  {
    var s := Quoted(a, b) + rest;
    var k, m := |a|, |b|;
    QuotedLayout(a, b, rest);
    assert NoNewline(s, 8, 8 + k) by {
      forall t | 8 <= t < 8 + k ensures s[t] != '\n' {
        assert s[t] == s[8..8 + k][t - 8];
      }
    }
    assert NoNewline(s, 14 + k, 14 + k + m) by {
      forall t | 14 + k <= t < 14 + k + m ensures s[t] != '\n' {
        assert s[t] == s[14 + k..14 + k + m][t - 14 - k];
      }
    }
    assert Match(s, 0, k, m);
    forall k': nat, m': nat | k' < k
      ensures !Match(s, 0, k', m')
    {
      assert s[8 + k'] == s[8..8 + k][k'];
    }
    forall m': nat | m' < m
      ensures !Match(s, 0, k, m')
    {
      assert s[14 + k + m'] == s[14 + k..14 + k + m][m'];
    }
  }

  /** A string that opens with the pattern, on plain groups, yields exactly
      those groups, whatever follows. */
  lemma LeadingChoices(a: string, b: string, rest: string)
    requires PlainGroup(a) && PlainGroup(b)
    ensures FirstChoices(Quoted(a, b) + rest) == Some((a, b))
  {
    var s := Quoted(a, b) + rest;
    QuotedFirstMatch(a, b, rest);
    var r := FirstChoices(s);
    var i: nat, k1: nat, m1: nat :| FirstMatch(s, i, k1, m1) && r.value == Groups(s, i, k1, m1);
    FirstMatchUnique(s, i, k1, m1, 0, |a|, |b|);
  }
}

=== FILE: letters.dfy ===
/** The short-letter allocator.

    Each argument offers an ordered list of candidate letters built from the
    underscore-separated segments of its name, and takes the first one not
    already taken. The letters taken are those of the arguments resolved
    before it plus the reserved `h` and `v`. Arguments are resolved once each,
    in declaration order, so the allocation is a left fold over the names that
    threads the set of letters taken so far.

    The set of taken letters holds `Option<char>`: an earlier argument that got
    no letter contributes `None` to it. That `None` counts towards the size
    check "26 letters taken", but no candidate letter ever equals it.
 */
module Letters {
  import opened Py
  import PyStr

  /** One step of the candidate generator: a letter it yields, or the point
      where it evaluates `part[0]` on an empty string and raises `IndexError`. */
  datatype Candidate = Letter(c: char) | Fault

  /** `s[0]`, evaluated lazily by the generator. */
  function Initial(s: string): Candidate {
    if |s| == 0 then Fault else Letter(s[0])
  }

  /** Every character of the name except underscores, in order. */
  function Spelled(name: string): (r: seq<Candidate>)
    ensures forall j :: 0 <= j < |r| ==> r[j].Letter? && r[j].c in name && r[j].c != '_'
  {
    if |name| == 0 then []
    else (if name[0] == '_' then [] else [Letter(name[0])]) + Spelled(name[1..])
  }

  /** The letters the generator yields for `name`, in the order it yields them:
      `o` for a name whose first segment is `output`; the initial of the second
      segment; the first character of the name; the initial of the third
      segment; then the initial of the fourth segment, or, for a name with
      fewer than four segments, each of its non-underscore characters. */
  function Candidates(name: string): (r: seq<Candidate>)
    ensures Initial(name) in r
    ensures PyStr.Split(name, '_')[0] == "output" ==> r[0] == Letter('o')
  {
    var parts := PyStr.Split(name, '_');
    (if parts[0] == "output" then [Letter('o')] else [])
    + (if |parts| > 1 then [Initial(parts[1])] else [])
    + [Initial(name)]
    + (if |parts| > 2 then [Initial(parts[2])] else [])
    + (if |parts| > 3 then [Initial(parts[3])] else Spelled(name))
  }

  /** The segment initials a name offers are characters of the name, and
      not underscores. */
  lemma SegmentInitial(name: string, k: nat)
    requires k < |PyStr.Split(name, '_')| && |PyStr.Split(name, '_')[k]| > 0
    ensures PyStr.Split(name, '_')[k][0] in name && PyStr.Split(name, '_')[k][0] != '_'
  {
    PyStr.SplitRoundTrip(name, '_');
    PyStr.JoinWithContains(PyStr.Split(name, '_'), '_', k, 0);
  }

  /** Every letter the generator yields is a character of the name; it is an
      underscore only when the name itself starts with one. */
  lemma CandidateLetters(name: string)
    ensures forall j :: 0 <= j < |Candidates(name)| && Candidates(name)[j].Letter? ==>
      var c := Candidates(name)[j].c;
      c in name && (c == '_' ==> name[0] == '_')
  {
    var parts := PyStr.Split(name, '_');
    if parts[0] == "output" {
      SegmentInitial(name, 0);
    }
    if |parts| > 1 && |parts[1]| > 0 {
      SegmentInitial(name, 1);
    }
    if |parts| > 2 && |parts[2]| > 0 {
      SegmentInitial(name, 2);
    }
    if |parts| > 3 && |parts[3]| > 0 {
      SegmentInitial(name, 3);
    }
  }

  /** The generator faults exactly when the name is empty, or one of its
      second, third or fourth segments, as far as it has them, is empty. */
  lemma CandidateFaults(name: string)
    ensures Fault in Candidates(name) <==>
      var parts := PyStr.Split(name, '_');
      || |name| == 0
      || (|parts| > 1 && parts[1] == "")
      || (|parts| > 2 && parts[2] == "")
      || (|parts| > 3 && parts[3] == "")
  {
  }

  /** A name without underscores offers its first character, then each of
      its characters in order. */
  lemma {:induction false} SpelledPlain(name: string)
    requires '_' !in name
    ensures Spelled(name) == seq(|name|, i requires 0 <= i < |name| => Letter(name[i]))
    decreases |name|
  {
    if |name| > 0 {
      SpelledPlain(name[1..]);
    }
  }

  lemma {:induction false} SpelledAppend(x: string, y: string)
    ensures Spelled(x + y) == Spelled(x) + Spelled(y)
    decreases |x|
  {
    if |x| > 0 {
      assert (x + y)[1..] == x[1..] + y;
      SpelledAppend(x[1..], y);
    } else {
      assert x + y == y;
    }
  }

  lemma CandidatesPlain(name: string)
    requires '_' !in name && |name| > 0 && name != "output"
    ensures |Candidates(name)| == |name| + 1 && Candidates(name)[0] == Letter(name[0])
    ensures forall i :: 0 <= i < |name| ==> Candidates(name)[i + 1] == Letter(name[i])
  {
    PyStr.SplitNoSep(name, '_');
    SpelledPlain(name);
  }

  /** A name of two segments offers the second segment's initial, then its
      own first character, then its spelling. */
  lemma CandidatesOfTwoParts(name: string, x: string, y: string)
    requires PyStr.Split(name, '_') == [x, y] && x != "output"
    ensures Candidates(name) == [Initial(y), Initial(name)] + Spelled(name)
  {
  }

  /** A name with exactly one underscore offers the initial of its second
      segment first, then its first character, then its spelling. */
  lemma CandidatesTwoSegments(a: string, b: string)
    requires '_' !in a && '_' !in b && |a| > 0 && |b| > 0 && a != "output"
    ensures |Candidates(a + "_" + b)| >= 2
    ensures Candidates(a + "_" + b)[0] == Letter(b[0]) && Candidates(a + "_" + b)[1] == Letter(a[0])
    ensures Candidates(a + "_" + b)[2..] == Spelled(a + "_" + b)
  {
    var name := a + "_" + b;
    PyStr.SplitTwo(a, b, '_');
    CandidatesOfTwoParts(name, a, b);
    assert name[0] == a[0];
  }

  /** The two letters no argument may take. */
  const Reserved: set<Option<char>> := {Some('h'), Some('v')}

  /** A candidate the argument cannot use: a letter already in `existing`. */
  predicate Blocked(cand: Candidate, existing: set<Option<char>>) {
    cand.Letter? && Some(cand.c) in existing
  }

  /** The generator loop: the first candidate letter not in `existing`;
      `None` once the candidates run out; `IndexError` if a fault comes first. */
  function Pick(cands: seq<Candidate>, existing: set<Option<char>>): (r: Result<Option<char>>)
    ensures r.Ok? && r.value.Some? ==>
      && Some(r.value.value) !in existing
      && exists j :: 0 <= j < |cands| && cands[j] == Letter(r.value.value)
                     && forall t :: 0 <= t < j ==> Blocked(cands[t], existing)
    ensures r == Ok(None) <==> forall t :: 0 <= t < |cands| ==> Blocked(cands[t], existing)
    ensures r.Err? ==>
      exists j :: 0 <= j < |cands| && cands[j] == Fault
                  && forall t :: 0 <= t < j ==> Blocked(cands[t], existing)
  {
    if |cands| == 0 then Ok(None)
    else match cands[0]
      case Fault => Err(IndexError("parts[i][0]"))
      case Letter(c) =>
        if Some(c) !in existing then Ok(Some(c))
        else
          var r := Pick(cands[1..], existing);
          assert forall t :: 1 <= t < |cands| ==> cands[t] == cands[1..][t - 1];
          r
  }

  /** Conversely, the first unblocked letter, with no fault before it, is
      what the generator yields. */
  lemma {:induction false} PickFirstFree(cands: seq<Candidate>, existing: set<Option<char>>, j: nat)
    requires j < |cands| && cands[j].Letter? && Some(cands[j].c) !in existing
    requires forall t :: 0 <= t < j ==> Blocked(cands[t], existing)
    ensures Pick(cands, existing) == Ok(Some(cands[j].c))
    decreases j
  {
    if j > 0 {
      assert Blocked(cands[0], existing);
      PickFirstFree(cands[1..], existing, j - 1);
    }
  }

  /** `Argument.short_letter`, given the letters `existing` taken before it. */
  function ShortLetter(name: string, existing: set<Option<char>>): (r: Result<Option<char>>)
    ensures |existing| == 26 ==> r == Ok(None)
    ensures r.Ok? && r.value.Some? ==> Some(r.value.value) !in existing
    ensures r.Ok? && r.value.Some? && Reserved <= existing ==>
              r.value.value != 'h' && r.value.value != 'v'
  {
    if |existing| == 26 then Ok(None) else Pick(Candidates(name), existing)
  }

  /** `short_letter` returns the first free candidate, when fewer than 26
      letters are taken and no fault comes first. */
  lemma ShortLetterFirstFree(name: string, existing: set<Option<char>>, j: nat)
    requires |existing| != 26
    requires j < |Candidates(name)| && Candidates(name)[j].Letter? && Some(Candidates(name)[j].c) !in existing
    requires forall t :: 0 <= t < j ==> Blocked(Candidates(name)[t], existing)
    ensures ShortLetter(name, existing) == Ok(Some(Candidates(name)[j].c))
  {
    PickFirstFree(Candidates(name), existing, j);
  }

  /** A name without underscores takes its first character when free. */
  lemma PlainFirstLetter(name: string, existing: set<Option<char>>)
    requires '_' !in name && |name| > 0 && name != "output"
    requires |existing| != 26 && Some(name[0]) !in existing
    ensures ShortLetter(name, existing) == Ok(Some(name[0]))
  {
    CandidatesPlain(name);
    ShortLetterFirstFree(name, existing, 0);
  }

  /** Otherwise it takes its second character when that one is free. */
  lemma PlainSecondLetter(name: string, existing: set<Option<char>>)
    requires '_' !in name && |name| > 1 && name != "output"
    requires |existing| != 26 && Some(name[0]) in existing && Some(name[1]) !in existing
    ensures ShortLetter(name, existing) == Ok(Some(name[1]))
  {
    CandidatesPlain(name);
    ShortLetterFirstFree(name, existing, 2);
  }

  /** A name `a_b` takes the initial of `b` when free. */
  lemma TwoSegmentLetter(a: string, b: string, existing: set<Option<char>>)
    requires '_' !in a && '_' !in b && |a| > 0 && |b| > 0 && a != "output"
    requires |existing| != 26 && Some(b[0]) !in existing
    ensures ShortLetter(a + "_" + b, existing) == Ok(Some(b[0]))
  {
    CandidatesTwoSegments(a, b);
    ShortLetterFirstFree(a + "_" + b, existing, 0);
  }

  /** The letters taken by the first `i` arguments. */
  function Seen(ls: seq<Option<char>>, i: nat): set<Option<char>>
    requires i <= |ls|
  {
    set j | 0 <= j < i :: ls[j]
  }

  /** Resolve the arguments named `names` in order, each seeing `existing`
      plus the letters of those before it. */
  function AllocateFrom(names: seq<string>, existing: set<Option<char>>): (r: Result<seq<Option<char>>>)
    ensures r.Ok? ==> |r.value| == |names|
  {
    if |names| == 0 then Ok([])
    else
      var l :- ShortLetter(names[0], existing);
      var rest :- AllocateFrom(names[1..], existing + {l});
      Ok([l] + rest)
  }

  /** One step of the fold. */
  lemma AllocateFromCons(names: seq<string>, existing: set<Option<char>>, l: Option<char>, rest: seq<Option<char>>)
    requires |names| > 0
    requires ShortLetter(names[0], existing) == Ok(l)
    requires AllocateFrom(names[1..], existing + {l}) == Ok(rest)
    ensures AllocateFrom(names, existing) == Ok([l] + rest)
  {
  }

  /** The short letters of one target's arguments, in declaration order. */
  function Allocate(names: seq<string>): (r: Result<seq<Option<char>>>)
    ensures r.Ok? ==> |r.value| == |names|
  {
    AllocateFrom(names, Reserved)
  }

  /** Every step of `ls` is what `short_letter` gives for its argument, when
      the letters before it are those of `ls`. */
  ghost predicate StepsAgree(names: seq<string>, existing: set<Option<char>>, ls: seq<Option<char>>)
  {
    && |ls| == |names|
    && forall i :: 0 <= i < |names| ==> ShortLetter(names[i], existing + Seen(ls, i)) == Ok(ls[i])
  }

  lemma SeenShift(ls: seq<Option<char>>, i: nat)
    requires 0 < i <= |ls|
    ensures Seen(ls, i) == {ls[0]} + Seen(ls[1..], i - 1)
  {
    forall x | x in Seen(ls, i)
      ensures x in {ls[0]} + Seen(ls[1..], i - 1)
    {
      var j :| 0 <= j < i && ls[j] == x;
      if j > 0 {
        assert ls[1..][j - 1] == x;
      }
    }
    forall x | x in Seen(ls[1..], i - 1)
      ensures x in Seen(ls, i)
    {
      var j :| 0 <= j < i - 1 && ls[1..][j] == x;
      assert ls[j + 1] == x;
    }
  }

  lemma SeenNext(ls: seq<Option<char>>, n: nat)
    requires n < |ls|
    ensures Seen(ls, n + 1) == Seen(ls, n) + {ls[n]}
  {
  }

  lemma ShiftedExisting(existing: set<Option<char>>, ls: seq<Option<char>>, i: nat)
    requires 0 < i <= |ls|
    ensures existing + Seen(ls, i) == (existing + {ls[0]}) + Seen(ls[1..], i - 1)
  {
    SeenShift(ls, i);
  }

  lemma {:induction false} AllocateStepsSound(names: seq<string>, existing: set<Option<char>>, ls: seq<Option<char>>)
    requires AllocateFrom(names, existing) == Ok(ls)
    ensures StepsAgree(names, existing, ls)
    decreases |names|
  {
    if |names| > 0 {
      var l := ls[0];
      var e' := existing + {l};
      assert ShortLetter(names[0], existing) == Ok(l);
      assert AllocateFrom(names[1..], e') == Ok(ls[1..]);
      AllocateStepsSound(names[1..], e', ls[1..]);
      assert existing + Seen(ls, 0) == existing;
      forall i | 0 < i < |names|
        ensures ShortLetter(names[i], existing + Seen(ls, i)) == Ok(ls[i])
      {
        ShiftedExisting(existing, ls, i);
        assert names[1..][i - 1] == names[i] && ls[1..][i - 1] == ls[i];
      }
    }
  }

  lemma HeadStep(names: seq<string>, existing: set<Option<char>>, ls: seq<Option<char>>)
    requires StepsAgree(names, existing, ls) && |names| > 0
    ensures ShortLetter(names[0], existing) == Ok(ls[0])
  {
    assert existing + Seen(ls, 0) == existing;
  }

  lemma {:induction false} AllocateStepsComplete(names: seq<string>, existing: set<Option<char>>, ls: seq<Option<char>>)
    requires StepsAgree(names, existing, ls)
    ensures AllocateFrom(names, existing) == Ok(ls)
    decreases |names|
  {
    if |names| > 0 {
      HeadStep(names, existing, ls);
      TailStepsAgree(names, existing, ls);
      AllocateStepsComplete(names[1..], existing + {ls[0]}, ls[1..]);
      AllocateFromCons(names, existing, ls[0], ls[1..]);
      assert ls == [ls[0]] + ls[1..];
    }
  }

  lemma TailStepAt(names: seq<string>, existing: set<Option<char>>, ls: seq<Option<char>>, i: nat)
    requires StepsAgree(names, existing, ls) && i + 1 < |names|
    ensures ShortLetter(names[i + 1], (existing + {ls[0]}) + Seen(ls[1..], i)) == Ok(ls[i + 1])
  {
    ShiftedExisting(existing, ls, i + 1);
  }

  lemma TailStepsAgree(names: seq<string>, existing: set<Option<char>>, ls: seq<Option<char>>)
    requires StepsAgree(names, existing, ls) && |names| > 0
    ensures StepsAgree(names[1..], existing + {ls[0]}, ls[1..])
  {
    forall i | 0 <= i < |names| - 1
      ensures ShortLetter(names[1..][i], existing + {ls[0]} + Seen(ls[1..], i)) == Ok(ls[1..][i])
    {
      TailStepAt(names, existing, ls, i);
      assert names[1..][i] == names[i + 1] && ls[1..][i] == ls[i + 1];
    }
  }

  /** The fold resolves each argument seeing exactly the letters of the
      arguments declared before it, and nothing else: it succeeds with `ls`
      exactly when every step agrees with `short_letter`. */
  lemma AllocateSteps(names: seq<string>, existing: set<Option<char>>, ls: seq<Option<char>>)
    ensures AllocateFrom(names, existing) == Ok(ls) <==> StepsAgree(names, existing, ls)
  {
    if AllocateFrom(names, existing) == Ok(ls) {
      AllocateStepsSound(names, existing, ls);
    }
    if StepsAgree(names, existing, ls) {
      AllocateStepsComplete(names, existing, ls);
    }
  }

  /** No two arguments of one target share a letter, and no argument gets `h`
      or `v`. */
  lemma AllocateDistinct(names: seq<string>, ls: seq<Option<char>>)
    requires Allocate(names) == Ok(ls)
    ensures forall i :: 0 <= i < |ls| ==> ls[i] != Some('h') && ls[i] != Some('v')
    ensures forall i, j :: 0 <= i < j < |ls| && ls[j].Some? ==> ls[i] != ls[j]
  {
    AllocateSteps(names, Reserved, ls);
    forall i, j | 0 <= i < j < |ls| && ls[j].Some?
      ensures ls[i] != ls[j]
    {
      assert ShortLetter(names[j], Reserved + Seen(ls, j)) == Ok(ls[j]);
      assert ls[i] in Seen(ls, j);
    }
    forall i | 0 <= i < |ls|
      ensures ls[i] != Some('h') && ls[i] != Some('v')
    {
      assert ShortLetter(names[i], Reserved + Seen(ls, i)) == Ok(ls[i]);
    }
  }

  /** Later arguments never change the letters of earlier ones. */
  lemma {:induction false} AllocatePrefix(names: seq<string>, existing: set<Option<char>>, ls: seq<Option<char>>, k: nat)
    requires AllocateFrom(names, existing) == Ok(ls)
    requires k <= |names|
    ensures AllocateFrom(names[..k], existing) == Ok(ls[..k])
    decreases k
  {
    if k > 0 {
      var l := ls[0];
      assert ShortLetter(names[0], existing) == Ok(l);
      assert AllocateFrom(names[1..], existing + {l}) == Ok(ls[1..]);
      AllocatePrefix(names[1..], existing + {l}, ls[1..], k - 1);
      assert names[..k][1..] == names[1..][..k - 1];
      assert names[..k][0] == names[0];
      assert ls[..k] == [l] + ls[1..][..k - 1];
    }
  }

  /** While every argument so far got a letter, each one added a letter of
      its own to the taken set. */
  lemma {:induction false} SeenGrows(names: seq<string>, ls: seq<Option<char>>, n: nat)
    requires StepsAgree(names, Reserved, ls)
    requires n <= |ls|
    requires forall i :: 0 <= i < n ==> ls[i].Some?
    ensures |Reserved + Seen(ls, n)| == 2 + n
    decreases n
  {
    if n == 0 {
      assert Seen(ls, 0) == {};
      assert |Reserved| == 2;
    } else {
      SeenGrows(names, ls, n - 1);
      var before := Reserved + Seen(ls, n - 1);
      assert ShortLetter(names[n - 1], before) == Ok(ls[n - 1]);
      assert ls[n - 1] !in before;
      SeenNext(ls, n - 1);
      assert Reserved + Seen(ls, n) == before + {ls[n - 1]};
    }
  }

  /** Exhaustion: a target with 25 or more arguments always leaves one of its
      first 25 without a letter, and that is not an error. */
  lemma Exhaustion(names: seq<string>, ls: seq<Option<char>>)
    requires Allocate(names) == Ok(ls)
    requires |names| >= 25
    ensures exists i :: 0 <= i < 25 && ls[i] == None
  {
    AllocateSteps(names, Reserved, ls);
    if forall i :: 0 <= i < 24 ==> ls[i].Some? {
      SeenGrows(names, ls, 24);
      var taken := Reserved + Seen(ls, 24);
      assert ShortLetter(names[24], taken) == Ok(ls[24]);
      ShortLetterFull(names[24], taken);
    }
  }

  /** Once 26 letters are taken, `short_letter` gives up without an error. */
  lemma ShortLetterFull(name: string, existing: set<Option<char>>)
    requires |existing| == 26
    ensures ShortLetter(name, existing) == Ok(None)
  {
  }
}

=== FILE: optmagic.dfy ===
/** The engine: it binds a target (a function or a class), builds one
    argument per parameter, assembles the parser specification (program
    name, title, epilog, version string, the required group, every
    argument's `add_argument` call and the three built-in flags), and
    dispatches the parsed values to the target.

    What Python discovers by reflection is an input here: the target's kind,
    its parameters in declaration order, the parameter descriptions its
    docstring parser found, and the metadata of the module that defines it
    (`child`) and of that module's top-level package (`base`).
 */
module OptMagic {
  import opened Py
  import opened Arguments
  import Letters

  //----------------------------------------------------------------------
  // The target
  //----------------------------------------------------------------------

  /** The object handed to `OptMagic(...)`. */
  datatype PyObject = ClassObject | FunctionObject | OtherObject(repr: string)

  /** One parameter of the target's signature. */
  datatype Parameter = Parameter(name: string, default: Default)

  /** The attributes of a module the engine reads; `None` is an attribute
      the module does not have. */
  datatype ModuleInfo = ModuleInfo(
    name: string,
    doc: Option<string>,
    version: Option<string>,
    projectUrl: Option<string>)

  datatype Target = Target(
    obj: PyObject,
    params: seq<Parameter>,
    docs: map<string, string>,
    child: ModuleInfo,
    base: ModuleInfo)

  datatype Kind = ClassKind | FunctionKind

  /** `OptMagic.type` */
  function TypeOf(obj: PyObject): (r: Result<Kind>)
    ensures r == Ok(ClassKind) <==> obj.ClassObject?
    ensures r == Ok(FunctionKind) <==> obj.FunctionObject?
    ensures r.Err? <==> obj.OtherObject?
    ensures r.Err? ==> r.error.ValueError?
  {
    if obj.ClassObject? then Ok(ClassKind)
    else if obj.FunctionObject? then Ok(FunctionKind)
    else Err(ValueError("OptMagic should be called with a function or a class but not with `" + obj.repr + "`."))
  }

  /** The callable whose signature and docstring describe the arguments. */
  datatype Callee = Constructor | TheFunction

  /** `OptMagic.func`: the constructor of a class, the function itself
      otherwise; any other object fails as `type` does. */
  function Func(obj: PyObject): (r: Result<Callee>)
    ensures r.Ok? <==> TypeOf(obj).Ok?
    ensures r == Ok(Constructor) <==> obj.ClassObject?
    ensures r == Ok(TheFunction) <==> obj.FunctionObject?
    ensures r.Err? ==> r == Err(TypeOf(obj).error)
  {
    var kind :- TypeOf(obj);
    match kind
    case ClassKind => Ok(Constructor)
    case FunctionKind => Ok(TheFunction)
  }

  //----------------------------------------------------------------------
  // Arguments
  //----------------------------------------------------------------------

  /** `OptMagic.arguments`: one argument per parameter, in declaration order,
      its description read from the docstring map; a parameter missing from
      the map raises `KeyError`, the first such parameter in order. */
  function MakeArguments(params: seq<Parameter>, docs: map<string, string>): (r: Result<seq<Argument>>)
    ensures r.Ok? <==> forall i :: 0 <= i < |params| ==> params[i].name in docs
    ensures r.Ok? ==> |r.value| == |params|
    ensures r.Ok? ==> forall i :: 0 <= i < |params| ==>
      r.value[i] == NewArgument(params[i].name, params[i].default, docs[params[i].name])
    ensures r.Err? ==> exists i :: (0 <= i < |params| && params[i].name !in docs
      && r.error == KeyError(params[i].name)
      && forall j :: 0 <= j < i ==> params[j].name in docs)
  {
    if |params| == 0 then Ok([])
    else if params[0].name !in docs then Err(KeyError(params[0].name))
    else
      var rest :- MakeArguments(params[1..], docs);
      var r := [NewArgument(params[0].name, params[0].default, docs[params[0].name])] + rest;
      assert forall i :: 1 <= i < |params| ==> params[i] == params[1..][i - 1] && r[i] == rest[i - 1];
      Ok(r)
  }

  //----------------------------------------------------------------------
  // Program name, title, version and epilog
  //----------------------------------------------------------------------

  /** The 75 dashes that frame the epilog. */
  const Rule: string := "---------------------------------------------------------------------------"

  /** The project URL: the top-level package's overrides the defining
      module's. */
  function ProjectUrl(child: ModuleInfo, base: ModuleInfo): (r: Option<string>)
    ensures base.projectUrl.Some? ==> r == base.projectUrl
    ensures base.projectUrl.None? ==> r == child.projectUrl
  {
    if base.projectUrl.Some? then base.projectUrl else child.projectUrl
  }

  /** Python's `s[:-1]`. */
  function DropLast(s: string): (r: string)
    ensures |s| > 0 ==> |r| == |s| - 1 && s == r + [s[|s| - 1]]
    ensures |s| == 0 ==> r == s
  {
    if |s| == 0 then s else s[..|s| - 1]
  }

  /** The position of the last argument without a default. */
  function LastRequired(args: seq<Argument>): (r: Option<nat>)
    ensures r.Some? ==> r.value < |args| && !HasDefault(args[r.value])
    ensures r.Some? ==> forall j :: r.value < j < |args| ==> HasDefault(args[j])
    ensures r.None? ==> forall j :: 0 <= j < |args| ==> HasDefault(args[j])
    ensures forall i :: 0 <= i < |args| ==>
      (r == Some(i) <==> !HasDefault(args[i]) && forall j :: i < j < |args| ==> HasDefault(args[j]))
  {
    if |args| == 0 then None
    else if !HasDefault(args[|args| - 1]) then Some(|args| - 1)
    else LastRequired(args[..|args| - 1])
  }

  /** `epilog_string`, with its side effect made explicit: the boxed "More
      information" banner when a project URL is known, and the arguments
      afterwards, where the last required one has lost the final character
      of its help when, and only when, the banner was made. */
  function Epilog(child: ModuleInfo, base: ModuleInfo, args: seq<Argument>): (r: (Option<string>, seq<Argument>))
    ensures r.0.Some? <==> ProjectUrl(child, base).Some?
    ensures r.0.Some? ==>
      r.0.value == Rule + "\n| More information at " + ProjectUrl(child, base).value + "\n" + Rule
    ensures |r.1| == |args|
    ensures forall i :: 0 <= i < |args| ==>
      r.1[i].name == args[i].name && r.1[i].default == args[i].default && r.1[i].desc == args[i].desc
    ensures forall i :: 0 <= i < |args| ==>
      if r.0.Some? && LastRequired(args) == Some(i)
      then r.1[i].help == DropLast(args[i].help)
      else r.1[i] == args[i]
  {
    match ProjectUrl(child, base)
    case None => (None, args)
    case Some(url) =>
      var msg := Rule + "\n| More information at " + url + "\n" + Rule;
      match LastRequired(args)
      case None => (Some(msg), args)
      case Some(k) =>
        var a := args[k];
        (Some(msg), args[k := a.(help := DropLast(a.help))])
  }

  /** `version_string` as written: when only the defining module declares a
      version, the second branch still reads it from the top-level package,
      which raises `AttributeError`. */
  function VersionStringAsWritten(base: ModuleInfo, child: ModuleInfo): (r: Result<string>)
    ensures base.version.Some? ==> r == Ok(base.name + " version " + base.version.value)
    ensures base.version.None? && child.version.Some? ==> r == Err(AttributeError("__version__"))
    ensures base.version.None? && child.version.None? ==> r == Ok(base.name)
  {
    if base.version.Some? then Ok(base.name + " version " + base.version.value)
    else if child.version.Some? then Err(AttributeError("__version__"))
    else Ok(base.name)
  }

  /** `version_string` as evidently intended: the program name, followed by
      the version of the top-level package, or failing that of the defining
      module, when either declares one. */
  function VersionString(base: ModuleInfo, child: ModuleInfo): (r: string)
    ensures |base.name| <= |r| && r[..|base.name|] == base.name
    ensures r == base.name <==> base.version.None? && child.version.None?
    ensures base.version.Some? ==> r == base.name + " version " + base.version.value
    ensures base.version.None? && child.version.Some? ==> r == base.name + " version " + child.version.value
  {
    if base.version.Some? then base.name + " version " + base.version.value
    else if child.version.Some? then base.name + " version " + child.version.value
    else base.name
  }

  /** The as-written version string fails on a package without a version
      whose defining module has one; the corrected one does not. */
  lemma VersionStringFinding()
    ensures var base := ModuleInfo("pkg", None, None, None);
            var child := ModuleInfo("pkg.cars", None, Some("1.0"), None);
            && VersionStringAsWritten(base, child).Err?
            && VersionString(base, child) == "pkg version 1.0"
  {
  }

  /** Wherever the as-written version string succeeds, the corrected one
      gives the same text. */
  lemma VersionStringAgrees(base: ModuleInfo, child: ModuleInfo)
    requires VersionStringAsWritten(base, child).Ok?
    ensures VersionString(base, child) == VersionStringAsWritten(base, child).value
  {
  }

  //----------------------------------------------------------------------
  // The parser
  //----------------------------------------------------------------------

  /** What the engine hands to the parsing library. */
  datatype ParserSpec = ParserSpec(
    prog: string,
    description: Option<string>,
    epilog: Option<string>,
    requiredGroup: bool,
    calls: seq<Call>)

  /** `c` is the `add_argument` call registering `a`: under `--name` and a
      one-letter short flag, in the group its default selects. */
  predicate Added(a: Argument, c: Call) {
    && c.AddArgument?
    && c.long == "--" + a.name
    && |c.short| == 2 && c.short[0] == '-'
    && (c.group == RequiredGroup <==> !HasDefault(a))
  }

  /** `c` is an `add_argument` call carrying the keyword options of `a`. */
  predicate Passed(a: Argument, c: Call) {
    c.AddArgument? && KwargsOf(a) == Ok(c.kwargs)
  }

  lemma AddArgAdded(a: Argument, l: Option<char>)
    requires AddArg(a, l).Ok?
    ensures Added(a, AddArg(a, l).value)
    ensures Passed(a, AddArg(a, l).value)
  {
  }

  /** The loop of `parser` over the arguments: each argument resolves its
      short letter, seeing the letters of those before it, then is added. */
  function AddAll(args: seq<Argument>, existing: set<Option<char>>): (r: Result<seq<Call>>)
    ensures r.Ok? ==> |r.value| == |args|
    ensures r.Ok? ==> forall i :: 0 <= i < |args| ==> Added(args[i], r.value[i])
    ensures r.Ok? ==> forall i :: 0 <= i < |args| ==> Passed(args[i], r.value[i])
  {
    if |args| == 0 then Ok([])
    else
      var l :- Letters.ShortLetter(args[0].name, existing);
      var c :- AddArg(args[0], l);
      AddArgAdded(args[0], l);
      var rest :- AddAll(args[1..], existing + {l});
      AddedCons(args, c, rest);
      Ok([c] + rest)
  }

  /** The parser loop gets through `args` exactly when the allocator gives
      every argument a letter and every description has a display name it
      can compute. */
  predicate LoopSucceeds(args: seq<Argument>, existing: set<Option<char>>) {
    var ls := Letters.AllocateFrom(Names(args), existing);
    && ls.Ok?
    && forall i :: 0 <= i < |args| ==> Resolves(args[i], ls.value[i])
  }

  /** `a` gets past `add_arg` with letter `l`. */
  predicate Resolves(a: Argument, l: Option<char>) {
    l.Some? && Metavar(a.desc).Ok?
  }

  lemma {:induction false} AddAllSucceeds(args: seq<Argument>, existing: set<Option<char>>)
    ensures AddAll(args, existing).Ok? <==> LoopSucceeds(args, existing)
    decreases |args|
  {
    if |args| == 0 {
      assert Names(args) == [];
    } else {
      var first := Letters.ShortLetter(args[0].name, existing);
      if first.Ok? {
        var l := first.value;
        AddAllSucceeds(args[1..], existing + {l});
        AddAllCons(args, existing, l);
        LoopSucceedsCons(args, existing, l);
      } else {
        var names := Names(args);
        assert names[0] == args[0].name;
      }
    }
  }

  /** The error `add_arg` raises for `a` when the letters in `taken` are
      already used: the fault of `short_letter`, then `'-' + None` for a
      missing letter, then the failure of `metavar`. */
  predicate StepFails(a: Argument, taken: set<Option<char>>, err: PyError) {
    var sl := Letters.ShortLetter(a.name, taken);
    || (sl.Err? && err == sl.error)
    || (sl == Ok(None) && err == TypeError("'-' + None"))
    || (sl.Ok? && sl.value.Some? && Metavar(a.desc).Err? && err == Metavar(a.desc).error)
  }

  /** The loop gets through the first `i` arguments with letters `ls` and
      then fails on argument `i` with `err`. */
  predicate FailsAt(args: seq<Argument>, existing: set<Option<char>>, i: nat, ls: seq<Option<char>>, err: PyError) {
    && i < |args| && |ls| == i
    && Letters.AllocateFrom(Names(args[..i]), existing) == Ok(ls)
    && (forall j :: 0 <= j < i ==> Resolves(args[j], ls[j]))
    && StepFails(args[i], existing + Letters.Seen(ls, i), err)
  }

  /** A failed loop reports the error of the first argument that does not
      get through `add_arg`. */
  lemma {:induction false} AddAllError(args: seq<Argument>, existing: set<Option<char>>)
    requires AddAll(args, existing).Err?
    ensures exists i, ls :: FailsAt(args, existing, i, ls, AddAll(args, existing).error)
    decreases |args|
  {
    assert |args| > 0;
    var err := AddAll(args, existing).error;
    var sl := Letters.ShortLetter(args[0].name, existing);
    if sl.Err? || sl == Ok(None) || Metavar(args[0].desc).Err? {
      FailsFirst(args, existing);
    } else {
      var l := sl.value;
      assert AddAll(args[1..], existing + {l}).Err? && AddAll(args[1..], existing + {l}).error == err;
      AddAllError(args[1..], existing + {l});
      var i, ls :| FailsAt(args[1..], existing + {l}, i, ls, err);
      FailsLater(args, existing, l, i, ls, err);
    }
  }

  /** The loop fails on its first argument. */
  lemma FailsFirst(args: seq<Argument>, existing: set<Option<char>>)
    requires |args| > 0 && AddAll(args, existing).Err?
    requires var sl := Letters.ShortLetter(args[0].name, existing);
      sl.Err? || sl == Ok(None) || Metavar(args[0].desc).Err?
    ensures FailsAt(args, existing, 0, [], AddAll(args, existing).error)
  {
    assert Names(args[..0]) == [];
    assert existing + Letters.Seen([], 0) == existing;
  }

  /** A failure after the first argument is a failure of the whole loop,
      one position later. */
  lemma FailsLater(args: seq<Argument>, existing: set<Option<char>>, l: Option<char>,
                   i: nat, ls: seq<Option<char>>, err: PyError)
    requires |args| > 0 && Letters.ShortLetter(args[0].name, existing) == Ok(l)
    requires Resolves(args[0], l)
    requires FailsAt(args[1..], existing + {l}, i, ls, err)
    ensures FailsAt(args, existing, i + 1, [l] + ls, err)
  {
    PrefixAllocates(args, existing, l, i, ls);
    PrefixResolves(args, l, i, ls);
    SeenCons(existing, l, ls);
    assert args[i + 1] == args[1..][i];
  }

  lemma PrefixAllocates(args: seq<Argument>, existing: set<Option<char>>, l: Option<char>, i: nat, ls: seq<Option<char>>)
    requires i + 1 <= |args| && Letters.ShortLetter(args[0].name, existing) == Ok(l)
    requires Letters.AllocateFrom(Names(args[1..][..i]), existing + {l}) == Ok(ls)
    ensures Letters.AllocateFrom(Names(args[..i + 1]), existing) == Ok([l] + ls)
  {
    var names := Names(args[..i + 1]);
    assert names[0] == args[0].name && names[1..] == Names(args[1..][..i]);
    Letters.AllocateFromCons(names, existing, l, ls);
  }

  lemma PrefixResolves(args: seq<Argument>, l: Option<char>, i: nat, ls: seq<Option<char>>)
    requires i + 1 <= |args| && |ls| == i && Resolves(args[0], l)
    requires forall j :: 0 <= j < i ==> Resolves(args[1..][j], ls[j])
    ensures forall j :: 0 <= j < i + 1 ==> Resolves(args[j], ([l] + ls)[j])
  {
    PairwiseCons((a, m) => Resolves(a, m), args[..i + 1], l, ls);
    assert forall j :: 0 <= j < i + 1 ==> args[..i + 1][j] == args[j];
    assert forall j :: 0 <= j < i ==> args[..i + 1][1..][j] == args[1..][j];
  }

  lemma SeenCons(existing: set<Option<char>>, l: Option<char>, ls: seq<Option<char>>)
    ensures existing + Letters.Seen([l] + ls, |ls| + 1) == existing + {l} + Letters.Seen(ls, |ls|)
  {
    Letters.SeenShift([l] + ls, |ls| + 1);
    assert ([l] + ls)[1..] == ls;
  }

  /** One step of the parser loop, once the first letter is known. */
  lemma AddAllCons(args: seq<Argument>, existing: set<Option<char>>, l: Option<char>)
    requires |args| > 0 && Letters.ShortLetter(args[0].name, existing) == Ok(l)
    ensures AddAll(args, existing).Ok? <==>
      l.Some? && Metavar(args[0].desc).Ok? && AddAll(args[1..], existing + {l}).Ok?
  {
  }

  /** One step of `LoopSucceeds`, once the first letter is known. */
  lemma LoopSucceedsCons(args: seq<Argument>, existing: set<Option<char>>, l: Option<char>)
    requires |args| > 0 && Letters.ShortLetter(args[0].name, existing) == Ok(l)
    ensures LoopSucceeds(args, existing) <==>
      l.Some? && Metavar(args[0].desc).Ok? && LoopSucceeds(args[1..], existing + {l})
  {
    var names := Names(args);
    assert names[0] == args[0].name && names[1..] == Names(args[1..]);
    var tail := Letters.AllocateFrom(names[1..], existing + {l});
    if tail.Ok? {
      Letters.AllocateFromCons(names, existing, l, tail.value);
      PairwiseConsIff((a, m) => Resolves(a, m), args, l, tail.value);
    }
  }

  /** A relation holds pairwise between two sequences exactly when it holds
      between their heads and pairwise between their tails. */
  lemma PairwiseConsIff<A, B>(rel: (A, B) -> bool, xs: seq<A>, y: B, ys: seq<B>)
    requires |xs| > 0 && |ys| == |xs| - 1
    ensures (forall i :: 0 <= i < |xs| ==> rel(xs[i], ([y] + ys)[i])) <==>
      rel(xs[0], y) && forall i :: 0 <= i < |ys| ==> rel(xs[1..][i], ys[i])
  {
    if rel(xs[0], y) && forall i :: 0 <= i < |ys| ==> rel(xs[1..][i], ys[i]) {
      PairwiseCons(rel, xs, y, ys);
    }
    if forall i :: 0 <= i < |xs| ==> rel(xs[i], ([y] + ys)[i]) {
      forall i | 0 <= i < |ys|
        ensures rel(xs[1..][i], ys[i])
      {
        assert xs[1..][i] == xs[i + 1] && ys[i] == ([y] + ys)[i + 1];
      }
    }
  }

  lemma AddedCons(args: seq<Argument>, c: Call, rest: seq<Call>)
    requires |args| > 0 && |rest| == |args| - 1 && Added(args[0], c) && Passed(args[0], c)
    requires forall i :: 0 <= i < |rest| ==> Added(args[1..][i], rest[i])
    requires forall i :: 0 <= i < |rest| ==> Passed(args[1..][i], rest[i])
    ensures forall i :: 0 <= i < |args| ==> Added(args[i], ([c] + rest)[i])
    ensures forall i :: 0 <= i < |args| ==> Passed(args[i], ([c] + rest)[i])
  {
    PairwiseCons((a, d) => Added(a, d), args, c, rest);
    PairwiseCons((a, d) => Passed(a, d), args, c, rest);
  }

  /** A relation that holds between heads and, pairwise, between tails holds
      pairwise between the whole sequences. */
  lemma PairwiseCons<A, B>(rel: (A, B) -> bool, xs: seq<A>, y: B, ys: seq<B>)
    requires |xs| > 0 && |ys| == |xs| - 1 && rel(xs[0], y)
    requires forall i :: 0 <= i < |ys| ==> rel(xs[1..][i], ys[i])
    ensures forall i :: 0 <= i < |xs| ==> rel(xs[i], ([y] + ys)[i])
  {
    forall i | 1 <= i < |xs|
      ensures rel(xs[i], ([y] + ys)[i])
    {
      assert xs[i] == xs[1..][i - 1] && ([y] + ys)[i] == ys[i - 1];
    }
  }

  /** `OptMagic.parser`. It is only reached through `__call__`, after the
      target's kind has been checked. */
  function Parser(t: Target): (r: Result<ParserSpec>)
    ensures r.Ok? ==> MakeArguments(t.params, t.docs).Ok?
    ensures MakeArguments(t.params, t.docs).Err? ==> r == Err(MakeArguments(t.params, t.docs).error)
    ensures r.Ok? <==>
      MakeArguments(t.params, t.docs).Ok? && AddAll(FinalArguments(t), Letters.Reserved).Ok?
    ensures r.Ok? ==> r.value.prog == t.base.name && |r.value.calls| == |t.params| + 3
  {
    var args :- MakeArguments(t.params, t.docs);
    var (epilog, args') := Epilog(t.child, t.base, args);
    var calls :- AddAll(args', Letters.Reserved);
    Ok(ParserSpec(
      t.base.name,
      t.base.doc,
      epilog,
      |args'| > 0,
      calls + [VersionFlag(VersionString(t.base, t.child)), HelpFlag, PytestFlag]))
  }

  /** The names of the arguments, in order. */
  function Names(args: seq<Argument>): (r: seq<string>)
    ensures |r| == |args|
    ensures forall i :: 0 <= i < |args| ==> r[i] == args[i].name
  {
    seq(|args|, i requires 0 <= i < |args| => args[i].name)
  }

  /** `i` is the last parameter without a default. */
  predicate IsLastRequired(params: seq<Parameter>, i: nat) {
    && i < |params| && params[i].default == Empty
    && forall j :: i < j < |params| ==> params[j].default != Empty
  }

  /** The number of parameters without a default. */
  function RequiredCount(params: seq<Parameter>): nat {
    if |params| == 0 then 0
    else (if params[0].default == Empty then 1 else 0) + RequiredCount(params[1..])
  }

  /** The number of `add_argument` calls made on group `g`. */
  function GroupCount(calls: seq<Call>, g: Group): nat {
    if |calls| == 0 then 0
    else (if calls[0].AddArgument? && calls[0].group == g then 1 else 0) + GroupCount(calls[1..], g)
  }

  /** The letter of each call's short flag. */
  function ShortLetters(cs: seq<Call>): (ls: seq<Option<char>>)
    ensures |ls| == |cs|
  {
    seq(|cs|, i requires 0 <= i < |cs| =>
      if cs[i].AddArgument? && |cs[i].short| == 2 then Some(cs[i].short[1]) else None)
  }

  lemma AddAllHead(args: seq<Argument>, existing: set<Option<char>>, cs: seq<Call>)
    requires AddAll(args, existing) == Ok(cs) && |args| > 0
    ensures cs[0].AddArgument? && |cs[0].short| == 2 && cs[0].short[0] == '-'
    ensures Letters.ShortLetter(args[0].name, existing) == Ok(Some(cs[0].short[1]))
    ensures AddAll(args[1..], existing + {Some(cs[0].short[1])}) == Ok(cs[1..])
  {
    var l := Letters.ShortLetter(args[0].name, existing).value;
    var c := AddArg(args[0], l).value;
    assert l.Some? && c.short == ['-', l.value];
    var rest := AddAll(args[1..], existing + {l}).value;
    assert cs == [c] + rest;
  }

  lemma ShortLettersCons(cs: seq<Call>)
    requires |cs| > 0 && cs[0].AddArgument? && |cs[0].short| == 2
    ensures ShortLetters(cs) == [Some(cs[0].short[1])] + ShortLetters(cs[1..])
  {
    var ls := ShortLetters(cs);
    var tail := ShortLetters(cs[1..]);
    forall i | 1 <= i < |cs|
      ensures ls[i] == tail[i - 1]
    {
      assert cs[1..][i - 1] == cs[i];
    }
  }

  /** The parser loop uses exactly the letters the allocator gives. */
  lemma {:induction false} AddAllAllocates(args: seq<Argument>, existing: set<Option<char>>, cs: seq<Call>)
    requires AddAll(args, existing) == Ok(cs)
    ensures Letters.AllocateFrom(Names(args), existing) == Ok(ShortLetters(cs))
    decreases |args|
  {
    if |args| == 0 {
      assert ShortLetters(cs) == [];
    } else {
      AddAllHead(args, existing, cs);
      var l := Some(cs[0].short[1]);
      AddAllAllocates(args[1..], existing + {l}, cs[1..]);
      var names := Names(args);
      assert names[1..] == Names(args[1..]);
      Letters.AllocateFromCons(names, existing, l, ShortLetters(cs[1..]));
      ShortLettersCons(cs);
    }
  }

  /** Every call the parser loop makes has a one-letter short flag. */
  lemma AddAllFlags(args: seq<Argument>, existing: set<Option<char>>, cs: seq<Call>)
    requires AddAll(args, existing) == Ok(cs)
    ensures forall i :: 0 <= i < |cs| ==>
      ShortLetters(cs)[i].Some? && cs[i].short == ['-', ShortLetters(cs)[i].value]
  {
    FlagsOfAdded(args, cs);
  }

  lemma FlagsOfAdded(args: seq<Argument>, cs: seq<Call>)
    requires |cs| == |args| && forall i :: 0 <= i < |args| ==> Added(args[i], cs[i])
    ensures forall i :: 0 <= i < |cs| ==>
      ShortLetters(cs)[i].Some? && cs[i].short == ['-', ShortLetters(cs)[i].value]
  {
    forall i | 0 <= i < |cs|
      ensures ShortLetters(cs)[i].Some? && cs[i].short == ['-', ShortLetters(cs)[i].value]
    {
      assert Added(args[i], cs[i]);
      assert cs[i].short == ['-', cs[i].short[1]];
    }
  }

  /** The parser loop uses exactly the letters the allocator gives, and
      succeeds only if every argument got one. */
  lemma AddAllLetters(args: seq<Argument>, existing: set<Option<char>>, cs: seq<Call>)
    requires AddAll(args, existing) == Ok(cs)
    ensures Letters.AllocateFrom(Names(args), existing) == Ok(ShortLetters(cs))
    ensures forall i :: 0 <= i < |cs| ==>
      ShortLetters(cs)[i].Some? && cs[i].short == ['-', ShortLetters(cs)[i].value]
  {
    AddAllAllocates(args, existing, cs);
    AddAllFlags(args, existing, cs);
  }

  /** The shape of the specification: the program name and title of the
      top-level package; the required group exactly when the target has
      parameters (whatever their defaults); one call per parameter, in
      declaration order, on the required group exactly when the parameter
      has no default; then `--version`, `--help` and `--pytest`, last and in
      that order. */
  lemma ParserShape(t: Target, p: ParserSpec)
    requires Parser(t) == Ok(p)
    ensures p.prog == t.base.name && p.description == t.base.doc
    ensures p.epilog.Some? <==> ProjectUrl(t.child, t.base).Some?
    ensures p.requiredGroup <==> |t.params| > 0
    ensures |p.calls| == |t.params| + 3
    ensures forall i :: 0 <= i < |t.params| ==>
      && p.calls[i].AddArgument?
      && p.calls[i].long == "--" + t.params[i].name
      && (p.calls[i].group == RequiredGroup <==> t.params[i].default == Empty)
      && p.calls[i].kwargs.required == (t.params[i].default == Empty)
    ensures p.calls[|t.params|] == VersionFlag(VersionString(t.base, t.child))
    ensures p.calls[|t.params| + 1] == HelpFlag
    ensures p.calls[|t.params| + 2] == PytestFlag
  {
    var args := MakeArguments(t.params, t.docs).value;
    var (epilog, args') := Epilog(t.child, t.base, args);
    var calls := AddAll(args', Letters.Reserved).value;
    assert p.calls == calls + [VersionFlag(VersionString(t.base, t.child)), HelpFlag, PytestFlag];
    forall i | 0 <= i < |t.params|
      ensures p.calls[i] == calls[i]
      ensures args'[i].name == t.params[i].name && args'[i].default == t.params[i].default
    {
    }
  }

  /** The epilog handed to the parser: the project URL framed by the
      75-dash rule, when a URL is known. */
  lemma ParserEpilog(t: Target, p: ParserSpec)
    requires Parser(t) == Ok(p)
    ensures ProjectUrl(t.child, t.base).None? ==> p.epilog == None
    ensures ProjectUrl(t.child, t.base).Some? ==>
      p.epilog == Some(Rule + "\n| More information at " + ProjectUrl(t.child, t.base).value + "\n" + Rule)
  {
  }

  lemma {:induction false} GroupCountPrefix(params: seq<Parameter>, calls: seq<Call>, g: Group)
    requires |calls| >= |params|
    requires forall i :: 0 <= i < |params| ==>
      calls[i].AddArgument? && (calls[i].group == RequiredGroup <==> params[i].default == Empty)
    requires forall i :: |params| <= i < |calls| ==> !calls[i].AddArgument?
    ensures GroupCount(calls, g) == if g == RequiredGroup then RequiredCount(params) else |params| - RequiredCount(params)
    decreases |params|
  {
    if |params| == 0 {
      GroupCountNone(calls, g);
    } else {
      assert forall i :: 1 <= i < |params| ==> params[1..][i - 1] == params[i] && calls[1..][i - 1] == calls[i];
      GroupCountPrefix(params[1..], calls[1..], g);
      RequiredCountBound(params[1..]);
    }
  }

  lemma {:induction false} GroupCountNone(calls: seq<Call>, g: Group)
    requires forall i :: 0 <= i < |calls| ==> !calls[i].AddArgument?
    ensures GroupCount(calls, g) == 0
    decreases |calls|
  {
    if |calls| > 0 {
      assert forall i :: 1 <= i < |calls| ==> calls[1..][i - 1] == calls[i];
      GroupCountNone(calls[1..], g);
    }
  }

  lemma {:induction false} RequiredCountBound(params: seq<Parameter>)
    ensures RequiredCount(params) <= |params|
    decreases |params|
  {
    if |params| > 0 {
      RequiredCountBound(params[1..]);
    }
  }

  /** The required group receives one argument per parameter without a
      default, and the parser itself one per parameter with a default. */
  lemma ParserPartition(t: Target, p: ParserSpec)
    requires Parser(t) == Ok(p)
    ensures GroupCount(p.calls, RequiredGroup) == RequiredCount(t.params)
    ensures GroupCount(p.calls, ParserGroup) == |t.params| - RequiredCount(t.params)
  {
    ParserShape(t, p);
    Partition(t.params, p.calls);
  }

  /** Calls laid out as the parser lays them out, one per parameter then the
      three fixed flags, split between the groups by the defaults. */
  lemma Partition(params: seq<Parameter>, calls: seq<Call>)
    requires |calls| == |params| + 3
    requires forall i :: 0 <= i < |params| ==>
      calls[i].AddArgument? && (calls[i].group == RequiredGroup <==> params[i].default == Empty)
    requires calls[|params|].VersionFlag? && calls[|params| + 1] == HelpFlag && calls[|params| + 2] == PytestFlag
    ensures GroupCount(calls, RequiredGroup) == RequiredCount(params)
    ensures GroupCount(calls, ParserGroup) == |params| - RequiredCount(params)
  {
    var n := |params|;
    forall i | n <= i < |calls|
      ensures !calls[i].AddArgument?
    {
      assert i == n || i == n + 1 || i == n + 2;
    }
    GroupCountPrefix(params, calls, RequiredGroup);
    GroupCountPrefix(params, calls, ParserGroup);
  }

  /** The names of the parameters, in order. */
  function ParamNames(params: seq<Parameter>): (r: seq<string>)
    ensures |r| == |params|
    ensures forall i :: 0 <= i < |params| ==> r[i] == params[i].name
  {
    seq(|params|, i requires 0 <= i < |params| => params[i].name)
  }

  /** Short flags come from the allocator: for each argument, the letter the
      allocator picked for it; hence pairwise distinct and never `-h` or
      `-v`. */
  lemma ParserShortFlags(t: Target, p: ParserSpec)
    requires Parser(t) == Ok(p)
    ensures |p.calls| == |t.params| + 3
    ensures forall i :: 0 <= i < |t.params| ==> p.calls[i].AddArgument?
    ensures Letters.Allocate(ParamNames(t.params)).Ok?
    ensures |Letters.Allocate(ParamNames(t.params)).value| == |t.params|
    ensures forall i :: 0 <= i < |t.params| ==>
      var l := Letters.Allocate(ParamNames(t.params)).value[i];
      l.Some? && p.calls[i].short == ['-', l.value]
    ensures forall i :: 0 <= i < |t.params| ==> p.calls[i].short != "-h" && p.calls[i].short != "-v"
    ensures forall i, j :: 0 <= i < j < |t.params| ==> p.calls[i].short != p.calls[j].short
  {
    ParserCalls(t, p);
    var args' := FinalArguments(t);
    FlagsFromLoop(args', AddAll(args', Letters.Reserved).value, p.calls, ParamNames(t.params));
  }

  /** The calls of a built parser are those of the loop over the final
      arguments, whose names are the parameters' names, then the three flags. */
  lemma ParserCalls(t: Target, p: ParserSpec)
    requires Parser(t) == Ok(p)
    ensures MakeArguments(t.params, t.docs).Ok?
    ensures Names(FinalArguments(t)) == ParamNames(t.params)
    ensures AddAll(FinalArguments(t), Letters.Reserved).Ok?
    ensures p.calls == AddAll(FinalArguments(t), Letters.Reserved).value
                       + [VersionFlag(VersionString(t.base, t.child)), HelpFlag, PytestFlag]
  {
  }

  /** The flags of the parser loop's calls, read through the allocator. */
  lemma FlagsFromLoop(args: seq<Argument>, calls: seq<Call>, pcalls: seq<Call>, names: seq<string>)
    requires AddAll(args, Letters.Reserved) == Ok(calls)
    requires Names(args) == names
    requires |pcalls| >= |args| && forall i :: 0 <= i < |args| ==> pcalls[i] == calls[i]
    ensures Letters.Allocate(names).Ok? && |Letters.Allocate(names).value| == |names|
    ensures forall i :: 0 <= i < |names| ==>
      var l := Letters.Allocate(names).value[i];
      l.Some? && pcalls[i].AddArgument? && pcalls[i].short == ['-', l.value]
    ensures forall i :: 0 <= i < |names| ==> pcalls[i].short != "-h" && pcalls[i].short != "-v"
    ensures forall i, j :: 0 <= i < j < |names| ==> pcalls[i].short != pcalls[j].short
  {
    AddAllLetters(args, Letters.Reserved, calls);
    var ls := ShortLetters(calls);
    Letters.AllocateDistinct(names, ls);
    ShortFlagsDistinct(pcalls, ls, |names|);
  }

  lemma ShortFlagsDistinct(calls: seq<Call>, ls: seq<Option<char>>, n: nat)
    requires n <= |calls| && n <= |ls|
    requires forall i :: 0 <= i < n ==> ls[i].Some? && calls[i].AddArgument? && calls[i].short == ['-', ls[i].value]
    requires forall i :: 0 <= i < n ==> ls[i] != Some('h') && ls[i] != Some('v')
    requires forall i, j :: 0 <= i < j < n ==> ls[i] != ls[j]
    ensures forall i :: 0 <= i < n ==> calls[i].short != "-h" && calls[i].short != "-v"
    ensures forall i, j :: 0 <= i < j < n ==> calls[i].short != calls[j].short
  {
    forall i, j | 0 <= i < j < n
      ensures calls[i].short != calls[j].short
    {
      assert calls[i].short[1] == ls[i].value;
      assert calls[j].short[1] == ls[j].value;
    }
    forall i | 0 <= i < n
      ensures calls[i].short != "-h" && calls[i].short != "-v"
    {
      assert calls[i].short[1] == ls[i].value;
    }
  }

  /** Every argument must get a short letter for the parser to be built, and
      the allocator runs out by the 25th: a target with 25 or more
      parameters never gets a parser. */
  lemma ParserNeedsFewerThan25(t: Target)
    requires |t.params| >= 25
    ensures Parser(t).Err?
  {
    if Parser(t).Ok? {
      var p := Parser(t).value;
      ParserShortFlags(t, p);
      var ls := Letters.Allocate(ParamNames(t.params)).value;
      Letters.Exhaustion(ParamNames(t.params), ls);
    }
  }

  /** A parameter missing from the docstring map stops the parser with
      `KeyError` on the first such parameter. */
  lemma ParserUndocumented(t: Target, i: nat)
    requires i < |t.params| && t.params[i].name !in t.docs
    requires forall j :: 0 <= j < i ==> t.params[j].name in t.docs
    ensures Parser(t) == Err(KeyError(t.params[i].name))
  {
    var r := MakeArguments(t.params, t.docs);
    assert r.Err?;
    var k :| 0 <= k < |t.params| && t.params[k].name !in t.docs
      && r.error == KeyError(t.params[k].name)
      && forall j :: 0 <= j < k ==> t.params[j].name in t.docs;
    assert k == i;
  }

  /** The arguments as the parser loop sees them: after the epilog. */
  function FinalArguments(t: Target): seq<Argument>
    requires MakeArguments(t.params, t.docs).Ok?
  {
    Epilog(t.child, t.base, MakeArguments(t.params, t.docs).value).1
  }

  /** A parser is built exactly when every parameter is documented, the
      allocator gives every parameter a letter, and every description has a
      display name the code can compute. */
  lemma ParserBuilt(t: Target)
    ensures Parser(t).Ok? <==>
      && (forall i :: 0 <= i < |t.params| ==> t.params[i].name in t.docs)
      && Letters.Allocate(ParamNames(t.params)).Ok?
      && forall i :: 0 <= i < |t.params| ==>
           && Letters.Allocate(ParamNames(t.params)).value[i].Some?
           && Metavar(t.docs[t.params[i].name]).Ok?
  {
    if MakeArguments(t.params, t.docs).Ok? {
      var args' := FinalArguments(t);
      FinalArgumentsOfParams(t);
      AddAllSucceeds(args', Letters.Reserved);
    }
  }

  /** The arguments the parser loop sees carry the parameters' names and
      descriptions. */
  lemma FinalArgumentsOfParams(t: Target)
    requires MakeArguments(t.params, t.docs).Ok?
    ensures Names(FinalArguments(t)) == ParamNames(t.params)
    ensures |FinalArguments(t)| == |t.params|
    ensures forall i :: 0 <= i < |t.params| ==>
      t.params[i].name in t.docs && FinalArguments(t)[i].desc == t.docs[t.params[i].name]
  {
  }

  /** The last argument without a default is the last parameter without one. */
  lemma LastRequiredOfParams(args: seq<Argument>, params: seq<Parameter>, i: nat)
    requires |args| == |params|
    requires forall j :: 0 <= j < |args| ==> (HasDefault(args[j]) <==> params[j].default != Empty)
    ensures LastRequired(args) == Some(i) <==> IsLastRequired(params, i)
  {
  }

  lemma FinalHelp(t: Target, i: nat)
    requires MakeArguments(t.params, t.docs).Ok? && i < |t.params|
    ensures t.params[i].name in t.docs
    ensures FinalArguments(t)[i].help ==
      if ProjectUrl(t.child, t.base).Some? && IsLastRequired(t.params, i)
      then t.docs[t.params[i].name] + "\n"
      else t.docs[t.params[i].name] + "\n\n"
  {
    var args := MakeArguments(t.params, t.docs).value;
    var desc := t.docs[t.params[i].name];
    MadeArguments(t.params, t.docs);
    LastRequiredOfParams(args, t.params, i);
    EpilogHelp(t.child, t.base, args, i);
    DropLastBreak(desc);
  }

  /** What `MakeArguments` makes: per parameter, the same default and the
      description followed by two line breaks as help. */
  lemma MadeArguments(params: seq<Parameter>, docs: map<string, string>)
    requires MakeArguments(params, docs).Ok?
    ensures var args := MakeArguments(params, docs).value;
      && |args| == |params|
      && forall j :: 0 <= j < |args| ==>
        && params[j].name in docs
        && (HasDefault(args[j]) <==> params[j].default != Empty)
        && args[j].help == docs[params[j].name] + "\n\n"
  {
  }

  /** The help of each argument after `epilog_string`. */
  lemma EpilogHelp(child: ModuleInfo, base: ModuleInfo, args: seq<Argument>, i: nat)
    requires i < |args|
    ensures Epilog(child, base, args).1[i].help ==
      if ProjectUrl(child, base).Some? && LastRequired(args) == Some(i)
      then DropLast(args[i].help)
      else args[i].help
  {
    match ProjectUrl(child, base)
    case None =>
    case Some(url) =>
      match LastRequired(args)
      case None =>
      case Some(k) =>
        var a := args[k];
        assert Epilog(child, base, args).1 == args[k := a.(help := DropLast(a.help))];
  }

  lemma DropLastBreak(desc: string)
    ensures DropLast(desc + "\n\n") == desc + "\n"
  {
    assert (desc + "\n\n")[..|desc| + 1] == desc + "\n";
  }

  /** The help handed to the parser: the description and two line breaks,
      except for the last parameter without a default when a project URL is
      known, which keeps only one line break. */
  lemma ParserHelp(t: Target, p: ParserSpec, i: nat)
    requires Parser(t) == Ok(p) && i < |t.params|
    ensures t.params[i].name in t.docs
    ensures p.calls[i].AddArgument?
    ensures p.calls[i].kwargs.help ==
      if ProjectUrl(t.child, t.base).Some? && IsLastRequired(t.params, i)
      then t.docs[t.params[i].name] + "\n"
      else t.docs[t.params[i].name] + "\n\n"
  {
    var args' := FinalArguments(t);
    var calls := AddAll(args', Letters.Reserved).value;
    ParserShape(t, p);
    assert p.calls[i] == calls[i];
    assert Passed(args'[i], calls[i]);
    FinalHelp(t, i);
  }

  //----------------------------------------------------------------------
  // Dispatch
  //----------------------------------------------------------------------

  /** What `__call__` does with the target: call the function with the parsed
      values, or construct the class with them and call the instance with the
      extra arguments. */
  datatype Invocation =
    | CallFunction(kwargs: map<string, Value>)
    | ConstructThenCall(kwargs: map<string, Value>, args: seq<Value>, extraKwargs: map<string, Value>)

  /** `OptMagic.__call__`. `parsed` is what the parsing library returned for
      the specification `Parser(t)` and the command line. */
  function Invoke(t: Target, parsed: map<string, Value>, extraArgs: seq<Value>, extraKwargs: map<string, Value>): (r: Result<Invocation>)
    ensures t.obj.OtherObject? ==> r == Err(TypeOf(t.obj).error)
    ensures !t.obj.OtherObject? && Parser(t).Err? ==> r == Err(Parser(t).error)
    ensures !t.obj.OtherObject? && Parser(t).Ok? ==> r.Ok?
    ensures r.Ok? ==> Parser(t).Ok?
    ensures r.Ok? && t.obj.FunctionObject? ==> r.value == CallFunction(parsed)
    ensures r.Ok? && t.obj.ClassObject? ==> r.value == ConstructThenCall(parsed, extraArgs, extraKwargs)
  {
    var kind :- TypeOf(t.obj);
    var spec :- Parser(t);
    match kind
    case FunctionKind => Ok(CallFunction(parsed))
    case ClassKind => Ok(ConstructThenCall(parsed, extraArgs, extraKwargs))
  }
}


=== FILE: py.dfy ===
/** Python values and failures as the argument-synthesis engine sees them.

    The engine is written against Python's dynamic semantics: an absent
    dictionary key raises `KeyError`, indexing an empty list raises
    `IndexError`, and so on. Each of those exceptions becomes a `PyError`
    carried by `Result`, so that the model keeps every error path of the
    program instead of ruling it out with a precondition.
 */
module Py {

  /** Python's `None` or a value: an attribute that may be unset, a short
      letter that may be missing. */
  datatype Option<+T> = None | Some(value: T)

  /** The Python exceptions the engine can raise. */
  datatype PyError =
    | ValueError(message: string)   // a target that is neither a function nor a class
    | KeyError(key: string)         // a parameter with no entry in the docstring map
    | IndexError(site: string)      // an index into an empty list or string
    | TypeError(site: string)       // `'-' + None`
    | AttributeError(attr: string)  // a module attribute read where it does not exist

  /** A value or a raised exception; usable with `:-`. */
  datatype Result<+T> = Ok(value: T) | Err(error: PyError) {

    predicate IsFailure() {
      Err?
    }

    function PropagateFailure<U>(): Result<U>
      requires Err?
    {
      Err(error)
    }

    function Extract(): T
      requires Ok?
    {
      value
    }
  }

  /** The default values a parameter can declare. Only their identity
      matters to the engine: it never inspects them beyond "is it None". */
  datatype Value =
    | NoneValue
    | BoolValue(b: bool)
    | IntValue(i: int)
    | StrValue(s: string)

  /** A parameter's declared default, or the `inspect._empty` sentinel. */
  datatype Default = Empty | Given(value: Value)
}

=== FILE: pystr.dfy ===
/** The handful of Python `str` operations the engine relies on:
    `str.split()` with no argument (split on runs of whitespace),
    `' '.join(...)`, `str.split(sep)` with a one-character separator,
    and `lower()` / `upper()` (on the ASCII letters).
 */
module PyStr {

  //----------------------------------------------------------------------
  // Characters
  //----------------------------------------------------------------------

  /** The characters for which Python's `str.isspace()` holds; these are the
      separators of `str.split()` with no argument. */
  predicate IsSpace(c: char) {
    || c == ' ' || c == '\t' || c == '\n' || c == '\r'
    || c == '\U{000B}' || c == '\U{000C}'
    || ('\U{001C}' <= c <= '\U{001F}')
    || c == '\U{0085}' || c == '\U{00A0}' || c == '\U{1680}'
    || ('\U{2000}' <= c <= '\U{200A}')
    || c == '\U{2028}' || c == '\U{2029}' || c == '\U{202F}'
    || c == '\U{205F}' || c == '\U{3000}'
  }

  predicate IsUpperAscii(c: char) {
    'A' <= c <= 'Z'
  }

  predicate IsLowerAscii(c: char) {
    'a' <= c <= 'z'
  }

  function LowerChar(c: char): char {
    if IsUpperAscii(c) then (c as int + 32) as char else c
  }

  function UpperChar(c: char): char {
    if IsLowerAscii(c) then (c as int - 32) as char else c
  }

  /** `s.lower()` */
  function Lower(s: string): (r: string)
    ensures |r| == |s|
  {
    seq(|s|, i requires 0 <= i < |s| => LowerChar(s[i]))
  }

  /** `s.upper()` */
  function Upper(s: string): (r: string)
    ensures |r| == |s|
  {
    seq(|s|, i requires 0 <= i < |s| => UpperChar(s[i]))
  }

  function LowerAll(ws: seq<string>): (r: seq<string>)
    ensures |r| == |ws|
  {
    seq(|ws|, i requires 0 <= i < |ws| => Lower(ws[i]))
  }

  predicate NoUpper(s: string) {
    forall i :: 0 <= i < |s| ==> !IsUpperAscii(s[i])
  }

  predicate NoLower(s: string) {
    forall i :: 0 <= i < |s| ==> !IsLowerAscii(s[i])
  }

  predicate NoSpace(s: string) {
    forall i :: 0 <= i < |s| ==> !IsSpace(s[i])
  }

  //----------------------------------------------------------------------
  // str.split() and ' '.join(...)
  //----------------------------------------------------------------------

  /** A piece `str.split()` can return: non-empty, without whitespace. */
  predicate IsWord(w: string) {
    |w| > 0 && NoSpace(w)
  }

  predicate AllWords(ws: seq<string>) {
    forall i :: 0 <= i < |ws| ==> IsWord(ws[i])
  }

  /** Length of the longest whitespace-free prefix of `s`. */
  function WordEnd(s: string): (n: nat)
    ensures n <= |s|
    ensures forall i :: 0 <= i < n ==> !IsSpace(s[i])
    ensures n < |s| ==> IsSpace(s[n])
  {
    if |s| == 0 || IsSpace(s[0]) then 0 else 1 + WordEnd(s[1..])
  }

  /** `s.split()`: the maximal runs of non-whitespace characters, in order. */
  function Words(s: string): seq<string>
    decreases |s|
  {
    if |s| == 0 then []
    else if IsSpace(s[0]) then Words(s[1..])
    else
      var n := WordEnd(s);
      [s[..n]] + Words(s[n..])
  }

  /** Every piece `split()` returns is a word. */
  lemma {:induction false} WordsAreWords(s: string)
    ensures AllWords(Words(s))
    decreases |s|
  {
    if |s| > 0 {
      if IsSpace(s[0]) {
        WordsAreWords(s[1..]);
      } else {
        var n := WordEnd(s);
        WordsAreWords(s[n..]);
        assert IsWord(s[..n]);
      }
    }
  }

  /** `' '.join(ws)` */
  function Join(ws: seq<string>): (r: string)
    ensures |ws| > 0 ==> |ws[0]| <= |r| && r[..|ws[0]|] == ws[0]
  {
    if |ws| == 0 then ""
    else if |ws| == 1 then ws[0]
    else ws[0] + " " + Join(ws[1..])
  }

  /** The characters of `s` that are not whitespace, in order. */
  function NonSpace(s: string): string {
    if |s| == 0 then ""
    else if IsSpace(s[0]) then NonSpace(s[1..])
    else [s[0]] + NonSpace(s[1..])
  }

  function Concat(ws: seq<string>): string {
    if |ws| == 0 then "" else ws[0] + Concat(ws[1..])
  }

  /** A string already in the shape `' '.join(s.split()).lower()` produces:
      lowercase, no whitespace but single blanks, and no blank at either end. */
  predicate IsFlat(t: string) {
    && NoUpper(t)
    && (forall i :: 0 <= i < |t| && IsSpace(t[i]) ==> t[i] == ' ')
    && (|t| > 0 ==> t[0] != ' ' && t[|t| - 1] != ' ')
    && (forall i, j :: 0 <= i < |t| && 0 <= j < |t| && j == i + 1 ==> t[i] != ' ' || t[j] != ' ')
  }

  //----------------------------------------------------------------------
  // Lemmas
  //----------------------------------------------------------------------

  lemma {:induction false} WordEndOfWordThenSpace(w: string, rest: string)
    requires NoSpace(w)
    requires |rest| == 0 || IsSpace(rest[0])
    ensures WordEnd(w + rest) == |w|
    decreases |w|
  {
    if |w| == 0 {
      assert w + rest == rest;
    } else {
      assert (w + rest)[0] == w[0];
      assert (w + rest)[1..] == w[1..] + rest;
      WordEndOfWordThenSpace(w[1..], rest);
    }
  }

  /** A word followed by a blank is the first word of the string. */
  lemma WordsOfWordThenSpace(w: string, rest: string)
    requires IsWord(w)
    ensures Words(w + " " + rest) == [w] + Words(rest)
  {
    var s := w + " " + rest;
    WordEndOfWordThenSpace(w, " " + rest);
    assert s == w + (" " + rest);
    assert s[..|w|] == w;
    assert s[|w|..] == " " + rest;
    assert (" " + rest)[1..] == rest;
  }

  /** Nothing but whitespace. */
  predicate Blank(s: string) {
    forall i :: 0 <= i < |s| ==> IsSpace(s[i])
  }

  /** Leading whitespace is dropped by `split()`. */
  lemma {:induction false} WordsSkipBlank(pre: string, s: string)
    requires Blank(pre)
    ensures Words(pre + s) == Words(s)
    decreases |pre|
  {
    if |pre| > 0 {
      var t := pre + s;
      assert t[0] == pre[0] && IsSpace(t[0]);
      assert t[1..] == pre[1..] + s;
      assert Words(t) == Words(t[1..]);
      WordsSkipBlank(pre[1..], s);
    } else {
      assert pre + s == s;
    }
  }

  /** A word that ends the string or is followed by whitespace is the first
      word of the string. */
  lemma WordsOfWordThen(w: string, tail: string)
    requires IsWord(w) && (|tail| == 0 || IsSpace(tail[0]))
    ensures Words(w + tail) == [w] + Words(tail)
  {
    var s := w + tail;
    WordEndOfWordThenSpace(w, tail);
    assert s[0] == w[0];
    assert s[..|w|] == w;
    assert s[|w|..] == tail;
  }

  /** A word after a non-empty run of whitespace is the first word. */
  lemma WordsOfBlankThenWord(sep: string, b: string, tail: string)
    requires Blank(sep) && |sep| > 0 && IsWord(b)
    requires |tail| == 0 || IsSpace(tail[0])
    ensures IsSpace((sep + (b + tail))[0])
    ensures Words(sep + (b + tail)) == [b] + Words(tail)
  {
    WordsSkipBlank(sep, b + tail);
    WordsOfWordThen(b, tail);
  }

  /** Two words, with whitespace before and between them, followed by a
      tail that starts at a word boundary. */
  lemma WordsOfPair(pre: string, a: string, sep: string, b: string, tail: string)
    requires Blank(pre) && Blank(sep) && |sep| > 0 && IsWord(a) && IsWord(b)
    requires |tail| == 0 || IsSpace(tail[0])
    ensures Words(pre + a + sep + b + tail) == [a, b] + Words(tail)
  {
    var afterFirst := sep + (b + tail);
    var rest := Words(tail);
    assert Words(pre + a + sep + b + tail) == Words(a + afterFirst) by {
      Regroup(pre, a, sep, b, tail);
      WordsSkipBlank(pre, a + afterFirst);
    }
    assert Words(a + afterFirst) == [a] + ([b] + rest) by {
      WordsOfBlankThenWord(sep, b, tail);
      WordsOfWordThen(a, afterFirst);
    }
    ConsPair(a, b, rest);
  }

  lemma ConsPair<T>(x: T, y: T, s: seq<T>)
    ensures [x] + ([y] + s) == [x, y] + s
  {
  }

  lemma Regroup(s1: string, s2: string, s3: string, s4: string, s5: string)
    ensures s1 + s2 + s3 + s4 + s5 == s1 + (s2 + (s3 + (s4 + s5)))
  {
  }

  /** Splitting a join of words gives the words back. */
  lemma {:induction false} WordsOfJoin(ws: seq<string>)
    requires AllWords(ws)
    ensures Words(Join(ws)) == ws
    decreases |ws|
  {
    if |ws| == 0 {
    } else if |ws| == 1 {
      var w := ws[0];
      WordEndOfWordThenSpace(w, "");
      assert w + "" == w;
      assert w[..|w|] == w && w[|w|..] == "";
    } else {
      var w := ws[0];
      var tail := Join(ws[1..]);
      var s := Join(ws);
      assert s == w + (" " + tail);
      WordEndOfWordThenSpace(w, " " + tail);
      assert s[..|w|] == w;
      assert s[|w|..] == " " + tail;
      assert (" " + tail)[1..] == tail;
      WordsOfJoin(ws[1..]);
      assert Words(s) == [w] + Words(" " + tail);
      assert Words(" " + tail) == Words(tail);
      assert ws == [w] + ws[1..];
    }
  }

  /** The words, concatenated, are exactly the non-whitespace characters. */
  lemma {:induction false} WordsKeepContent(s: string)
    ensures Concat(Words(s)) == NonSpace(s)
    decreases |s|
  {
    if |s| == 0 {
    } else if IsSpace(s[0]) {
      WordsKeepContent(s[1..]);
    } else {
      var n := WordEnd(s);
      WordsKeepContent(s[n..]);
      NonSpaceOfWord(s[..n], s[n..]);
      assert s == s[..n] + s[n..];
      assert ([s[..n]] + Words(s[n..]))[1..] == Words(s[n..]);
    }
  }

  lemma {:induction false} NonSpaceOfWord(w: string, rest: string)
    requires NoSpace(w)
    ensures NonSpace(w + rest) == w + NonSpace(rest)
    decreases |w|
  {
    if |w| > 0 {
      assert (w + rest)[1..] == w[1..] + rest;
      NonSpaceOfWord(w[1..], rest);
      assert w == [w[0]] + w[1..];
    } else {
      assert w + rest == rest;
    }
  }

  lemma LowerConcat(a: string, b: string)
    ensures Lower(a + b) == Lower(a) + Lower(b)
  {
  }

  lemma {:induction false} LowerJoin(ws: seq<string>)
    ensures Lower(Join(ws)) == Join(LowerAll(ws))
    decreases |ws|
  {
    if |ws| > 1 {
      LowerJoin(ws[1..]);
      LowerConcat(ws[0] + " ", Join(ws[1..]));
      LowerConcat(ws[0], " ");
      assert LowerAll(ws)[1..] == LowerAll(ws[1..]);
    }
  }

  lemma LowerOfWords(ws: seq<string>)
    requires AllWords(ws)
    ensures AllWords(LowerAll(ws))
    ensures forall i :: 0 <= i < |ws| ==> NoUpper(LowerAll(ws)[i])
  {
  }

  lemma LowerIdentity(s: string)
    requires NoUpper(s)
    ensures Lower(s) == s
  {
  }

  /** Two flat strings joined by one blank form a flat string. */
  lemma FlatConcat(a: string, b: string)
    requires IsFlat(a) && IsFlat(b) && |a| > 0 && |b| > 0
    ensures IsFlat(a + " " + b)
  {
    var t := a + " " + b;
    forall i, j | 0 <= i < |t| && 0 <= j < |t| && j == i + 1
      ensures t[i] != ' ' || t[j] != ' '
    {
      if j < |a| {
        assert t[i] == a[i] && t[j] == a[j];
      } else if j == |a| {
        assert t[i] == a[|a| - 1];
      } else if j > |a| + 1 {
        assert t[i] == b[i - |a| - 1] && t[j] == b[j - |a| - 1];
      }
    }
    forall i | 0 <= i < |t| && IsSpace(t[i])
      ensures t[i] == ' '
    {
      if i < |a| {
        assert t[i] == a[i];
      } else if i > |a| {
        assert t[i] == b[i - |a| - 1];
      }
    }
    forall i | 0 <= i < |t|
      ensures !IsUpperAscii(t[i])
    {
      if i < |a| {
        assert t[i] == a[i];
      } else if i > |a| {
        assert t[i] == b[i - |a| - 1];
      }
    }
    assert t[|t| - 1] == b[|b| - 1];
  }

  /** Joining lowercase words gives a flat string. */
  lemma {:induction false} JoinIsFlat(ws: seq<string>)
    requires AllWords(ws)
    requires forall i :: 0 <= i < |ws| ==> NoUpper(ws[i])
    ensures IsFlat(Join(ws))
    decreases |ws|
  {
    if |ws| == 1 {
      assert NoSpace(ws[0]);
    } else if |ws| > 1 {
      JoinIsFlat(ws[1..]);
      JoinIsFlat([ws[0]]);
      FlatConcat(ws[0], Join(ws[1..]));
    }
  }

  /** A suffix of a flat string that does not start with a blank is flat. */
  lemma FlatSuffix(t: string, k: nat)
    requires IsFlat(t) && k < |t| && t[k] != ' '
    ensures IsFlat(t[k..])
  {
    var u := t[k..];
    forall i | 0 <= i < |u|
      ensures !IsUpperAscii(u[i]) && (IsSpace(u[i]) ==> u[i] == ' ')
    {
      assert u[i] == t[k + i];
    }
    forall i, j | 0 <= i < |u| && 0 <= j < |u| && j == i + 1
      ensures u[i] != ' ' || u[j] != ' '
    {
      assert u[i] == t[k + i] && u[j] == t[k + j];
    }
    assert u[|u| - 1] == t[|t| - 1];
  }

  /** In a flat string the first word is followed by a single blank and then
      by a flat, non-empty rest. */
  lemma FlatTail(t: string)
    requires IsFlat(t) && |t| > 0 && WordEnd(t) < |t|
    ensures var n := WordEnd(t);
      && t[n] == ' ' && n + 1 < |t| && IsFlat(t[n + 1..]) && !IsSpace(t[n + 1])
      && IsWord(t[..n])
  {
    var n := WordEnd(t);
    assert !IsSpace(t[0]);
    assert forall i :: 0 <= i < n ==> t[..n][i] == t[i];
    assert t[n] == ' ';
    assert n + 1 < |t|;
    assert t[n + 1] != ' ';
    FlatSuffix(t, n + 1);
  }

  /** A string without whitespace is its own only word. */
  lemma WordsOfWord(t: string)
    requires |t| > 0 && WordEnd(t) == |t|
    ensures Words(t) == [t]
  {
    assert t[..|t|] == t && t[|t|..] == "";
  }

  lemma JoinCons(w: string, ws: seq<string>)
    requires |ws| > 0
    ensures Join([w] + ws) == w + " " + Join(ws)
  {
    assert ([w] + ws)[1..] == ws;
  }

  /** A word, one blank, and a string that is the join of its words form a
      string that is the join of its words. */
  lemma JoinWordThen(w: string, u: string)
    requires IsWord(w) && |u| > 0 && !IsSpace(u[0])
    requires Join(Words(u)) == u
    ensures Join(Words(w + " " + u)) == w + " " + u
  {
    WordsOfWordThenSpace(w, u);
    WordsOfWordStart(u);
    JoinCons(w, Words(u));
  }

  /** A string that starts with a non-whitespace character has a word. */
  lemma WordsOfWordStart(u: string)
    requires |u| > 0 && !IsSpace(u[0])
    ensures |Words(u)| > 0
  {
  }

  lemma SplitAtBlank(t: string, n: nat)
    requires n < |t| && t[n] == ' '
    ensures t == t[..n] + " " + t[n + 1..]
  {
  }

  /** A flat string is the join of its own words. */
  lemma {:induction false} FlatIsJoinOfWords(t: string)
    requires IsFlat(t)
    ensures Join(Words(t)) == t
    decreases |t|
  {
    if |t| > 0 {
      if WordEnd(t) == |t| {
        assert !IsSpace(t[0]);
        WordsOfWord(t);
      } else {
        var n := WordEnd(t);
        FlatTail(t);
        FlatIsJoinOfWords(t[n + 1..]);
        SplitAtBlank(t, n);
        JoinWordThen(t[..n], t[n + 1..]);
      }
    }
  }

  //----------------------------------------------------------------------
  // str.split(sep)
  //----------------------------------------------------------------------

  /** `s.split(sep)`: the pieces between separators, at least one. */
  function Split(s: string, sep: char): (parts: seq<string>)
    ensures |parts| >= 1
    decreases |s|
  {
    if |s| == 0 then [""]
    else if s[0] == sep then [""] + Split(s[1..], sep)
    else
      var rest := Split(s[1..], sep);
      [[s[0]] + rest[0]] + rest[1..]
  }

  /** `sep.join(parts)` */
  function JoinWith(parts: seq<string>, sep: char): string
    requires |parts| >= 1
  {
    if |parts| == 1 then parts[0] else parts[0] + [sep] + JoinWith(parts[1..], sep)
  }

  /** Every character of every piece appears in the joined string. */
  lemma {:induction false} JoinWithContains(parts: seq<string>, sep: char, k: nat, i: nat)
    requires |parts| >= 1 && k < |parts| && i < |parts[k]|
    ensures parts[k][i] in JoinWith(parts, sep)
    decreases |parts|
  {
    if |parts| > 1 {
      var j := JoinWith(parts, sep);
      if k == 0 {
        assert j[i] == parts[0][i];
      } else {
        JoinWithContains(parts[1..], sep, k - 1, i);
        var x :| 0 <= x < |JoinWith(parts[1..], sep)| && JoinWith(parts[1..], sep)[x] == parts[k][i];
        assert j[|parts[0]| + 1 + x] == parts[k][i];
      }
    }
  }

  /** A string without the separator is its own only piece. */
  lemma {:induction false} SplitNoSep(s: string, sep: char)
    requires sep !in s
    ensures Split(s, sep) == [s]
    decreases |s|
  {
    if |s| > 0 {
      SplitNoSep(s[1..], sep);
      assert s == [s[0]] + s[1..];
    }
  }

  /** Two separator-free strings joined by one separator split back into
      the two. */
  lemma {:induction false} SplitTwo(a: string, b: string, sep: char)
    requires sep !in a && sep !in b
    ensures Split(a + [sep] + b, sep) == [a, b]
    decreases |a|
  {
    var s := a + [sep] + b;
    if |a| == 0 {
      assert s == [sep] + b;
      assert s[1..] == b;
      SplitNoSep(b, sep);
    } else {
      assert s[1..] == a[1..] + [sep] + b;
      SplitTwo(a[1..], b, sep);
      assert a == [a[0]] + a[1..];
    }
  }

  /** Joining the pieces of `s.split(sep)` with `sep` gives `s` back. */
  lemma {:induction false} SplitJoinsBack(s: string, sep: char)
    ensures JoinWith(Split(s, sep), sep) == s
    decreases |s|
  {
    if |s| > 0 {
      SplitJoinsBack(s[1..], sep);
      var rest := Split(s[1..], sep);
      var parts := Split(s, sep);
      if s[0] == sep {
        assert parts[1..] == rest;
        assert s == [sep] + s[1..];
      } else {
        assert parts[1..] == rest[1..];
        if |rest| == 1 {
          assert s == [s[0]] + rest[0];
        } else {
          assert JoinWith(rest, sep) == rest[0] + [sep] + JoinWith(rest[1..], sep);
          assert s == [s[0]] + s[1..];
        }
      }
    }
  }

  /** No piece of `s.split(sep)` holds `sep`. */
  lemma {:induction false} SplitPiecesClean(s: string, sep: char)
    ensures forall k, i :: 0 <= k < |Split(s, sep)| && 0 <= i < |Split(s, sep)[k]| ==> Split(s, sep)[k][i] != sep
    decreases |s|
  {
    if |s| > 0 {
      SplitPiecesClean(s[1..], sep);
      var rest := Split(s[1..], sep);
      var parts := Split(s, sep);
      if s[0] != sep {
        forall k, i | 0 <= k < |parts| && 0 <= i < |parts[k]|
          ensures parts[k][i] != sep
        {
          if k == 0 {
            if i > 0 {
              assert parts[0][i] == rest[0][i - 1];
            }
          } else {
            assert parts[k] == rest[k];
          }
        }
      }
    }
  }

  /** `s.split(sep)` loses nothing: the pieces hold no separator and
      joining them back with `sep` gives `s`. */
  lemma SplitRoundTrip(s: string, sep: char)
    ensures JoinWith(Split(s, sep), sep) == s
    ensures forall k, i :: 0 <= k < |Split(s, sep)| && 0 <= i < |Split(s, sep)[k]| ==> Split(s, sep)[k][i] != sep
  {
    SplitJoinsBack(s, sep);
    SplitPiecesClean(s, sep);
  }
}

=== FILE: vectors.dfy ===
/** Worked examples: the results the model gives on the parameters of the
    car class used by the repository's own tests. Each example names its
    input through a `requires`, so that the verifier reasons about the
    definitions rather than evaluating them on literals. */
module Vectors {
  import opened Py
  import Letters
  import Choices
  import PyStr
  import Arguments

  /** The car's parameters, in declaration order. */
  const Car: seq<string> :=
    ["name", "color", "automatic", "convertible", "max_speed", "registration", "sided"]

  /** The car's short letters, in the same order. */
  const CarShort: seq<Option<char>> :=
    [Some('n'), Some('c'), Some('a'), Some('o'), Some('s'), Some('r'), Some('i')]

  lemma NameStep(name: string, e: set<Option<char>>)
    requires name == "name" && e == {Some('h'), Some('v')}
    ensures Letters.ShortLetter(name, e) == Ok(Some('n'))
  {
    assert |e| == 2;
    assert name[0] == 'n';
    Letters.PlainFirstLetter(name, e);
  }

  lemma ColorStep(name: string, e: set<Option<char>>)
    requires name == "color" && e == {Some('h'), Some('v'), Some('n')}
    ensures Letters.ShortLetter(name, e) == Ok(Some('c'))
  {
    assert |e| == 3;
    assert name[0] == 'c';
    Letters.PlainFirstLetter(name, e);
  }

  lemma AutomaticStep(name: string, e: set<Option<char>>)
    requires name == "automatic" && e == {Some('h'), Some('v'), Some('n'), Some('c')}
    ensures Letters.ShortLetter(name, e) == Ok(Some('a'))
  {
    assert |e| == 4;
    assert name[0] == 'a';
    Letters.PlainFirstLetter(name, e);
  }

  /** `c` is taken, so the convertible spells on to its `o`. */
  lemma ConvertibleStep(name: string, e: set<Option<char>>)
    requires name == "convertible" && e == {Some('h'), Some('v'), Some('n'), Some('c'), Some('a')}
    ensures Letters.ShortLetter(name, e) == Ok(Some('o'))
  {
    assert |e| == 5;
    assert name[0] == 'c' && name[1] == 'o';
    Letters.PlainSecondLetter(name, e);
  }

  /** The second segment's initial comes first. */
  lemma MaxSpeedStep(name: string, e: set<Option<char>>)
    requires name == "max_speed" && e == {Some('h'), Some('v'), Some('n'), Some('c'), Some('a'), Some('o')}
    ensures Letters.ShortLetter(name, e) == Ok(Some('s'))
  {
    assert |e| == 6;
    assert name == "max" + "_" + "speed";
    Letters.TwoSegmentLetter("max", "speed", e);
  }

  lemma RegistrationStep(name: string, e: set<Option<char>>)
    requires name == "registration" && e == {Some('h'), Some('v'), Some('n'), Some('c'), Some('a'), Some('o'), Some('s')}
    ensures Letters.ShortLetter(name, e) == Ok(Some('r'))
  {
    assert |e| == 7;
    assert name[0] == 'r';
    Letters.PlainFirstLetter(name, e);
  }

  /** `s` went to `max_speed`, so `sided` takes its `i`. */
  lemma SidedStep(name: string, e: set<Option<char>>)
    requires name == "sided" && e == {Some('h'), Some('v'), Some('n'), Some('c'), Some('a'), Some('o'), Some('s'), Some('r')}
    ensures Letters.ShortLetter(name, e) == Ok(Some('i'))
  {
    assert |e| == 8;
    assert name[0] == 's' && name[1] == 'i';
    Letters.PlainSecondLetter(name, e);
  }

  /** The letters of the car's parameters from the `k`-th on, given the
      letters taken by those before it. */
  lemma CarFrom(names: seq<string>, k: nat)
    requires names == Car && k <= 7
    ensures Letters.AllocateFrom(names[k..], Taken(k)) == Ok(CarShort[k..])
    decreases 7 - k
  {
    if k == 7 {
      assert names[k..] == [] && CarShort[k..] == [];
    } else {
      var tail := names[k..];
      CarFrom(names, k + 1);
      Step(names, k);
      assert tail[0] == names[k] && tail[1..] == names[k + 1..];
      TakenNext(k);
      Letters.AllocateFromCons(tail, Taken(k), CarShort[k], CarShort[k + 1..]);
      assert [CarShort[k]] + CarShort[k + 1..] == CarShort[k..];
    }
  }

  /** The letters taken before the `k`-th parameter: `h`, `v` and those of
      the parameters before it. */
  function Taken(k: nat): set<Option<char>>
    requires k <= 7
  {
    if k == 0 then {Some('h'), Some('v')}
    else if k == 1 then {Some('h'), Some('v'), Some('n')}
    else if k == 2 then {Some('h'), Some('v'), Some('n'), Some('c')}
    else if k == 3 then {Some('h'), Some('v'), Some('n'), Some('c'), Some('a')}
    else if k == 4 then {Some('h'), Some('v'), Some('n'), Some('c'), Some('a'), Some('o')}
    else if k == 5 then {Some('h'), Some('v'), Some('n'), Some('c'), Some('a'), Some('o'), Some('s')}
    else if k == 6 then {Some('h'), Some('v'), Some('n'), Some('c'), Some('a'), Some('o'), Some('s'), Some('r')}
    else {Some('h'), Some('v'), Some('n'), Some('c'), Some('a'), Some('o'), Some('s'), Some('r'), Some('i')}
  }

  lemma TakenNext(k: nat)
    requires k < 7
    ensures Taken(k) + {CarShort[k]} == Taken(k + 1)
  {
  }

  lemma Step(names: seq<string>, k: nat)
    requires names == Car && k < 7
    ensures Letters.ShortLetter(names[k], Taken(k)) == Ok(CarShort[k])
  {
    if k == 0 {
      NameStep(names[0], Taken(0));
    } else if k == 1 {
      ColorStep(names[1], Taken(1));
    } else if k == 2 {
      AutomaticStep(names[2], Taken(2));
    } else if k == 3 {
      ConvertibleStep(names[3], Taken(3));
    } else if k == 4 {
      MaxSpeedStep(names[4], Taken(4));
    } else if k == 5 {
      RegistrationStep(names[5], Taken(5));
    } else if k == 6 {
      SidedStep(names[6], Taken(6));
    }
  }

  /** The car's short flags are `-n -c -a -o -s -r -i`. */
  lemma CarLetters(names: seq<string>)
    requires names == Car
    ensures Letters.Allocate(names) == Ok(CarShort)
  {
    CarFrom(names, 0);
    assert names[0..] == names && CarShort[0..] == CarShort;
  }

  /** A description whose flattened form opens with the car's `sided`
      clause offers the pair `('left', 'right')`. */
  lemma SidedChoices(desc: string, rest: string)
    requires Arguments.FlatDesc(desc) == Choices.Quoted("left", "right") + rest
    ensures Arguments.ChoicesOf(desc) == Some(("left", "right"))
  {
    Choices.LeadingChoices("left", "right", rest);
  }

  /** Likewise the `automatic` clause offers `('true', 'false')`: flattening
      has already lowercased the `'True'` and `'False'` of the docstring. */
  lemma AutomaticChoices(desc: string, rest: string)
    requires Arguments.FlatDesc(desc) == Choices.Quoted("true", "false") + rest
    ensures Arguments.ChoicesOf(desc) == Some(("true", "false"))
  {
    Choices.LeadingChoices("true", "false", rest);
  }

  /** The description of the car's `sided` parameter, "The side of the road
      ...", gives the display name `SIDE`, whatever follows. */
  lemma SidedMetavar(rest: string)
    ensures Arguments.Metavar("The side " + rest) == Ok(Some("SIDE"))
  {
    assert PyStr.Lower("The") == "the";
    assert PyStr.Upper("side") == "SIDE";
    assert PyStr.IsSpace((" " + rest)[0]);
    assert "The side " + rest == "" + "The" + " " + "side" + (" " + rest);
    Arguments.MetavarOfThe("", "The", " ", "side", " " + rest);
  }

  /** An indented, tab-separated description that ends on "directory" is
      abbreviated to `DIR`. */
  lemma DirectoryMetavar(desc: string)
    requires desc == "\n  THE\tDirectory"
    ensures Arguments.Metavar(desc) == Ok(Some("DIR"))
  {
    assert PyStr.Lower("THE") == "the";
    assert PyStr.Upper("Directory") == "DIRECTORY";
    assert PyStr.Blank("\n  ") && PyStr.Blank("\t");
    assert desc == "\n  " + "THE" + "\t" + "Directory" + "";
    Arguments.MetavarOfThe("\n  ", "THE", "\t", "Directory", "");
  }
}
